=== FILE: README.md ===
# Personalized content dashboard: client-side state model

This project models the client-side state logic of a personalised content dashboard in Dafny.
The dashboard is a single-page app that pulls news, movie and placeholder social items into one feed.
The user can search, favourite and reorder the items, and the app saves their preferences locally.

The model covers:

- **Content store** (`ContentSlice`). The state is a record of immutable sequences. Each Redux reducer is a pure function of the state:
  - search;
  - favourite toggle;
  - drag reorder;
  - clear error;
  - fetch pending, fulfilled and rejected;
  - trending fulfilled.

  `Reduce` dispatches over the closed set of actions. A reorder whose start index names no card of the list it works on makes the code insert `undefined` into that list. An item sequence cannot hold `undefined`, so such a reorder yields an outcome that records where `undefined` lands, and `Reduce` yields no state for it.
- **Search rule** (`Search`, `Text`, `Lists`). An item matches when its lower-cased title, description or category contains the lower-cased query. The search view is an order-preserving filter. It is proved to be the one and only subsequence that keeps exactly the matching items.
- **Aggregator** (`Aggregate`). This is the deterministic part of `fetchContent` and `fetchTrending`:
  - mapping articles and movie hits to items;
  - the poster and description fallbacks;
  - the five synthesised social posts;
  - the newest-first sort;
  - "the first rejected request rejects the whole call".

  The network results, the clock and the timestamp parser are parameters.
- **Preference store** (`UserSlice`). It covers the defaults, the merge-on-load rule, the partial update, the category toggle, the dark-mode flip and the settings flag. It also models the storage slot every preference change is written to. Reloading from that slot is proved to restore the preferences in effect, after any sequence of actions.
- **Page** (`IndexView`). It chooses the list, title and empty message for each section. It holds the load-more guard and the paging props handed to the content grid.
- **Infinite-scroll trigger** (`InfiniteScroll`). This is the condition under which `onLoadMore` fires.
- **Findings** (`Pagination`, `ViewSync`, `Reorder`). These are four places where the code does not do what it evidently means to (see "## Findings"). Each has the as-written behaviour, an input that exhibits it, and a corrected definition with its property proved.

Some behaviours of the code are easy to misread:

- A fetch answer replaces the items only when the store's cursor `currentPage` is 1, whatever page was requested. The cursor only grows, so a page-1 answer is appended whenever `currentPage` is past 1 (Finding 2). On every run in which no reorder inserts `undefined`, the replacing branch fills an empty store: a state with the cursor at 1 holds no items, no search results and no favourites (`ContentSlice.CursorOneMeansEmpty`). A drag that inserts `undefined` while the first page is pending (Finding 4) leaves `[undefined]` behind for the page-1 answer to replace.
- `favorites` agrees with the favourite flags of `items` under favourite toggles with unique item ids and under appended pages (`ContentSlice.ToggleFavoriteKeepsAgreement`, `ContentSlice.FulfilledAppendKeepsAgreement`). No fetch touches `favorites`. So once a category change really replaces the items, as the corrected reducer of Finding 2 does, the favourites outlive the items they named (`Pagination.CategoryChangeLeavesFavoritesBehind`).
- `hasMore` never turns false after a successful fetch. Every batch carries the five social posts, so the payload is never empty and load-more stays available (`IndexView.FetchedPageKeepsLoadMore`). The `hasMore` half of the load-more guard and the grid's end-of-content message are therefore never reached by a successful fetch. With Finding 1 this means every scroll to the bottom appends page 2 again.
- The category list is not kept duplicate-free by `updatePreferences`, which stores any list it is given. Only `toggleCategory` keeps a duplicate-free list duplicate-free.

## Model

| member | source | states |
|---|---|---|
| Text.Lower | frontend/src/store/slices/contentSlice.ts:172-174 | `toLowerCase` keeps the length and lower-cases each ASCII letter in place |
| Text.Contains | frontend/src/store/slices/contentSlice.ts:172-174 | `includes`: the empty string occurs in every string, and nothing longer than the text occurs in it |
| Text.ContainsIffOccurs | frontend/src/store/slices/contentSlice.ts:172-174 | `includes` holds exactly when the query occurs at some position of the text |
| Text.LowerIdempotent | frontend/src/store/slices/contentSlice.ts:172-174 | lower-cased text has no upper-case letter left, so lower-casing twice is the same as once |
| Text.NatToString | frontend/src/store/slices/contentSlice.ts:61 | `${n}` renders a natural as a non-empty string of decimal digits, a single digit exactly below 10, with a leading zero only for 0 |
| Text.NatToStringInjective | frontend/src/store/slices/contentSlice.ts:98 | distinct page or index numbers render as distinct strings inside generated ids |
| Lists.FilterBy | frontend/src/store/slices/contentSlice.ts:171-175 | `filter` keeps the passing elements in order: the result is a subsequence, every element passes, an element of the input is in the result exactly when it passes, and its length is the number of passing elements |
| Lists.FilterByUnique | frontend/src/store/slices/contentSlice.ts:171-175 | any in-order subsequence of passing elements as long as the count of passing elements IS the filter; the filter drops no match and keeps no non-match |
| Lists.FilterByConcat | frontend/src/store/slices/contentSlice.ts:212-219 | filtering an appended page equals filtering the old list followed by the filtered page |
| Lists.ConcatContains | frontend/src/store/slices/contentSlice.ts:52-72 | every element of every per-category batch is in the concatenated news list |
| Lists.CountByZero | frontend/src/store/slices/contentSlice.ts:183 | nothing is counted exactly when no element passes |
| Lists.SpliceIndex | frontend/src/store/slices/contentSlice.ts:195 | the insertion index `splice` uses: in range it is the index itself, past the end it is the end, negative counts from the end clamped at 0 |
| Lists.Move | frontend/src/store/slices/contentSlice.ts:194-195 | remove-then-insert keeps the length and the multiset, puts the moved element at the insertion index, and leaves every other element in its relative order |
| Lists.MoveExample | frontend/src/store/slices/contentSlice.ts:191-196 | [A, B, C, D] moved from 0 to 2 is [B, C, A, D] |
| Lists.MoveBack | frontend/src/store/slices/contentSlice.ts:191-196 | moving an element and moving it back restores the list |
| ContentModel.IndexOfId | frontend/src/store/slices/contentSlice.ts:179 | `find` by id yields the first position holding the id, or none when no entry holds it |
| ContentModel.IndexOfIdNoneIffCountZero | frontend/src/store/slices/contentSlice.ts:183 | the lookup finds nothing exactly when no entry carries the id |
| ContentModel.WithoutId | frontend/src/store/slices/contentSlice.ts:187 | `filter` by id keeps, in order, every entry with another id and none with the given id; it is as long as the entries with another id, so every copy survives |
| ContentModel.WithoutIdUnique | frontend/src/store/slices/contentSlice.ts:187 | any order-keeping selection of the entries without the id that keeps all of them is the removal itself |
| ContentModel.IdsWithout | frontend/src/store/slices/contentSlice.ts:187 | dropping the entries with an id removes exactly that id from the set of ids and keeps ids unique |
| ContentModel.IdsAppend | frontend/src/store/slices/contentSlice.ts:184 | pushing an entry adds its id, and keeps ids unique when the id was absent |
| ContentModel.SubsequenceUniqueIds | frontend/src/store/slices/contentSlice.ts:187 | deleting entries cannot create a repeated id |
| Search.Matches | frontend/src/store/slices/contentSlice.ts:172-174 | an empty query matches every item |
| Search.Filter | frontend/src/store/slices/contentSlice.ts:170-175 | the search results are in original order, all match, contain every matching item and no other, and number exactly the matching items |
| Search.SearchView | frontend/src/store/slices/contentSlice.ts:170-176 | the shortcut for the empty query equals the filter: the view holds an item exactly when it matches |
| Search.MatchesIffOccurs | frontend/src/store/slices/contentSlice.ts:172-174 | an item matches when the lower-cased query occurs at some position of its lower-cased title, description or category; the query's case is irrelevant |
| Search.SearchViewAppend | frontend/src/store/slices/contentSlice.ts:212-220 | the search view of appended items is the old view followed by the view of the new page |
| ContentSlice.SetSearchQuery | frontend/src/store/slices/contentSlice.ts:168-177 | the query is stored; an empty query shows all items; otherwise the view is exactly the matching items in order; nothing else changes |
| ContentSlice.SyncFavorites | frontend/src/store/slices/contentSlice.ts:182-188 | on becoming favourite the flipped item is appended at the end when its id is absent, and the list is unchanged when the id is already listed; on leaving, every entry with the id is removed; entries with other ids are untouched |
| ContentSlice.ToggleFavorite | frontend/src/store/slices/contentSlice.ts:178-190 | unknown id: state unchanged; otherwise only the first item with the id flips its flag; if it became a favourite, the flipped item is appended to `favorites` unless the id is already listed, in which case `favorites` is unchanged; if it stopped being one, every entry with the id leaves `favorites`; other favourites and all other fields are unchanged |
| ContentSlice.ReorderContent | frontend/src/store/slices/contentSlice.ts:191-196 | a start index past the active list (search results under a query, else items) inserts `undefined` at the clamped end index; otherwise the active list is permuted by one move, and the other list and all other fields are untouched |
| ContentSlice.ClearError | frontend/src/store/slices/contentSlice.ts:197-199 | the error is cleared and nothing else changes |
| ContentSlice.FetchPending | frontend/src/store/slices/contentSlice.ts:203-206 | loading starts and the error is cleared; nothing else changes |
| ContentSlice.FetchFulfilled | frontend/src/store/slices/contentSlice.ts:207-223 | with the cursor at 1 the items become the payload, else the payload is appended without dedup; the view is recomputed; `hasMore` iff the payload is non-empty; the cursor advances by one; loading stops |
| ContentSlice.FetchRejected | frontend/src/store/slices/contentSlice.ts:224-227 | loading stops; the error is the rejection message, or "Failed to fetch content" when it is missing or empty; items and view untouched |
| ContentSlice.TrendingFulfilled | frontend/src/store/slices/contentSlice.ts:228-230 | only the trending list changes, to the payload |
| ContentSlice.Reduce | frontend/src/store/slices/contentSlice.ts:166-231 | every action yields a state except a reorder whose start index is past the active list; the cursor never moves back |
| ContentSlice.ReduceAdvancesPageOnlyOnFulfil | frontend/src/store/slices/contentSlice.ts:222 | the cursor never decreases: a fulfilled fetch moves it by exactly one and every other action leaves it |
| ContentSlice.ReduceKeepsViewSynced | frontend/src/store/slices/contentSlice.ts:168-230 | every action other than a toggle or a reorder keeps `filteredItems` equal to the search view of `items` |
| ContentSlice.FulfilledAppendExtendsView | frontend/src/store/slices/contentSlice.ts:211-220 | appending a later page keeps the existing search results and adds the page's matches after them |
| ContentSlice.ToggleTwiceRestoresItems | frontend/src/store/slices/contentSlice.ts:181 | toggling the same id twice restores every item, including its favourite flag |
| ContentSlice.ToggleTwiceRestoresMembership | frontend/src/store/slices/contentSlice.ts:181-188 | when flag and `favorites` agree, a double toggle restores whether `favorites` holds the id |
| ContentSlice.FavoriteIdsAfterFlip | frontend/src/store/slices/contentSlice.ts:181 | with unique ids, flipping one item's flag adds or removes exactly its id from the favourite ids |
| ContentSlice.ToggleFavoriteKeepsAgreement | frontend/src/store/slices/contentSlice.ts:178-190 | with unique item ids, a toggle keeps `favorites` listing each favourite item's id exactly once and nothing else |
| ContentSlice.FulfilledAppendKeepsAgreement | frontend/src/store/slices/contentSlice.ts:207-223 | appending a page of fresh non-favourite items keeps `favorites` in agreement with the items |
| ContentSlice.ReduceKeepsEmptyBeforeFirstPage | frontend/src/store/slices/contentSlice.ts:166-231 | no action the model follows fills the store while the cursor stays at 1, and the cursor never drops below 1; the reorder that inserts `undefined` is not followed |
| ContentSlice.CursorOneMeansEmpty | frontend/src/store/slices/contentSlice.ts:209-210 | on every run from the initial state in which no reorder inserts `undefined`, a state with the cursor at 1 has empty items, search results and favourites, so the replacing branch fills an empty store |
| ContentSlice.ReorderBack | frontend/src/store/slices/contentSlice.ts:191-196 | with both indices in range the reorder moves a card, and dragging it back restores the whole state |
| Aggregate.NewsItem | frontend/src/store/slices/contentSlice.ts:60-71 | a news item has id `news-{category}-{page}-{index}`, the article's title, timestamp, image, link and author, its description or "" when missing, the requested category, and is not a favourite |
| Aggregate.NewsItems | frontend/src/store/slices/contentSlice.ts:60-71 | one news item per article, in order, the i-th with id `news-{category}-{page}-{i}`, the article's fields, the description fallback, and not a favourite |
| Aggregate.NewsItemsUniqueIds | frontend/src/store/slices/contentSlice.ts:61 | the news ids of one category's page are all different |
| Aggregate.NewsIdsDistinct | frontend/src/store/slices/contentSlice.ts:61 | within a category's page, distinct positions give distinct news ids |
| Aggregate.MovieItem | frontend/src/store/slices/contentSlice.ts:82-92 | a movie item has id `movie-{imdbID}`, category entertainment, is not a favourite, and its image is the poster unless the poster is `N/A`, then empty; its title is the hit's title and its description `Year: {Year}`; it has no url, author or rating |
| Aggregate.MovieItems | frontend/src/store/slices/contentSlice.ts:80-94 | a response without a result list contributes no items; otherwise one item per hit, in order |
| Aggregate.SocialItems | frontend/src/store/slices/contentSlice.ts:96-108 | exactly five social posts, the i-th being social post i of the page |
| Aggregate.SocialItem | frontend/src/store/slices/contentSlice.ts:97-107 | social post i of a page has id `social-{page}-{i}`, title, description `Social media content update #{i + 1}`, author and image number built from i + 1 and page * 10 + i + 200, the clock time, no url or rating, and is not a favourite |
| Aggregate.SocialIdsDistinct | frontend/src/store/slices/contentSlice.ts:98 | a social id determines its page and index, so ids never collide across pages |
| Aggregate.SocialImageKeysDistinct | frontend/src/store/slices/contentSlice.ts:102 | the placeholder image numbers never collide across pages and indices |
| Aggregate.InsertByTime | frontend/src/store/slices/contentSlice.ts:111 | inserting into a newest-first list keeps it newest-first and adds exactly the one item |
| Aggregate.SortByTime | frontend/src/store/slices/contentSlice.ts:111 | the result is newest first and a permutation of the input |
| Aggregate.CollectNews | frontend/src/store/slices/contentSlice.ts:52-73 | succeeds iff every category's request succeeds, and then yields each category's news items in the order the categories are requested; otherwise fails with the first failing category's error |
| Aggregate.FetchContent | frontend/src/store/slices/contentSlice.ts:45-112 | succeeds iff all news requests and the movie search succeed; news errors take precedence; on success the batch is a newest-first permutation of news, movies and the five social posts, none a favourite |
| Aggregate.FetchContentHasSocialPosts | frontend/src/store/slices/contentSlice.ts:96-110 | each of the five social posts of the page is in every successful batch |
| Aggregate.FetchContentHasNews | frontend/src/store/slices/contentSlice.ts:52-72 | each article of each requested category is in every successful batch, as its news item |
| Aggregate.TrendingNewsItem | frontend/src/store/slices/contentSlice.ts:127-138 | a headline item has id `trending-news-{i}`, category news, the article's fields with the description fallback, no rating, and is not a favourite |
| Aggregate.TrendingMovieItem | frontend/src/store/slices/contentSlice.ts:146-156 | a trending movie item is the feed's movie item with id `trending-movie-{imdbID}` |
| Aggregate.FetchTrending | frontend/src/store/slices/contentSlice.ts:115-161 | succeeds iff both requests succeed, else fails with the first error; item i is the headline item of article i, followed by the trending items of at most three movie hits in order, nothing else |
| UserSlice.Merge | frontend/src/store/slices/userSlice.ts:43 | a field given in the patch overrides, an absent one keeps its value |
| UserSlice.LoadPreferences | frontend/src/store/slices/userSlice.ts:24-31 | a missing or unparsable stored value yields the defaults; a parsed one overrides the defaults field by field |
| UserSlice.InitialUserState | frontend/src/store/slices/userSlice.ts:33-36 | the store starts with the loaded preferences and the settings panel closed |
| UserSlice.LoadAfterPersist | frontend/src/store/slices/userSlice.ts:27 | restoring what was saved gives back the saved preferences |
| UserSlice.MergeLaws | frontend/src/store/slices/userSlice.ts:43 | an empty patch changes nothing; two patches in a row act as one where later fields win |
| UserSlice.UpdatePreferences | frontend/src/store/slices/userSlice.ts:42-45 | exactly the fields present in the patch are overwritten; every other field, and the panel flag, is unchanged |
| UserSlice.IndexOf | frontend/src/store/slices/userSlice.ts:48 | `indexOf` yields the first position holding the category, or none exactly when it is absent |
| UserSlice.ToggledCategories | frontend/src/store/slices/userSlice.ts:46-57 | a present category loses its first occurrence, the rest keeping their order; an absent one is appended |
| UserSlice.ToggleCategory | frontend/src/store/slices/userSlice.ts:46-59 | removes the first copy of a present category keeping the order of the rest, or appends an absent one; nothing but the categories changes |
| UserSlice.ToggleDarkMode | frontend/src/store/slices/userSlice.ts:60-61 | dark mode flips and nothing else changes |
| UserSlice.SetSettingsOpen | frontend/src/store/slices/userSlice.ts:71-73 | the panel flag is set and the preferences are unchanged |
| UserSlice.Reduce | frontend/src/store/slices/userSlice.ts:42-73 | the panel action changes only the panel flag, and every other action leaves the panel flag alone |
| UserSlice.ToggleAbsentTwice | frontend/src/store/slices/userSlice.ts:49-55 | toggling an absent category twice restores the original state |
| UserSlice.ToggleKeepsNoDuplicates | frontend/src/store/slices/userSlice.ts:48-57 | on a duplicate-free list the toggle keeps it duplicate-free, changes its length by exactly one and flips the category's presence |
| UserSlice.RemovalKeepsNoDuplicates | frontend/src/store/slices/userSlice.ts:51 | removing one position of a duplicate-free list leaves it duplicate-free and without that value |
| UserSlice.ToggleBusinessFromDefaults | frontend/src/store/slices/userSlice.ts:16-21 | the default categories with business toggled off are [technology, entertainment] |
| UserSlice.ToggleDarkModeTwice | frontend/src/store/slices/userSlice.ts:60-61 | flipping dark mode twice is the identity |
| UserSlice.Dispatch | frontend/src/store/slices/userSlice.ts:42-73 | every preference mutation saves the full preferences; opening or closing the panel saves nothing |
| UserSlice.SessionStorageReflects | frontend/src/store/slices/userSlice.ts:24-73 | after any sequence of actions from any stored start, reloading the saved value yields the preferences in effect |
| InfiniteScroll.EffectiveThreshold | frontend/src/hooks/useInfiniteScroll.ts:13 | the threshold is 100 unless the caller supplies one |
| InfiniteScroll.HandleScroll | frontend/src/hooks/useInfiniteScroll.ts:15-23 | no load without an attached element, while loading or without more content; otherwise a load exactly when the distance to the bottom is below the threshold |
| InfiniteScroll.FiresCloserToBottom | frontend/src/hooks/useInfiniteScroll.ts:20-22 | if the trigger fires at some position it fires at every position at least as close to the bottom |
| IndexView.CurrentItems | frontend/src/pages/Index.tsx:82-91 | trending shows the trending list, favourites the favourites, the feed the search results under a query and the items otherwise |
| IndexView.CurrentTitle | frontend/src/pages/Index.tsx:93-102 | fixed titles per section; in the feed with a query, `Search Results for "` followed by the query and a closing quote |
| IndexView.EmptyMessage | frontend/src/pages/Index.tsx:104-115 | fixed messages per section; in the feed with a query, `No results found for "` followed by the query and a closing quote |
| IndexView.FeedTextsQuoteQuery | frontend/src/pages/Index.tsx:93-115 | in the feed with a query, title and empty message contain the query and determine it; without one they are fixed texts; other sections ignore the query |
| IndexView.InitialRequest | frontend/src/pages/Index.tsx:41-45 | mounting or changing categories requests page 1 of the preferred categories |
| IndexView.LoadMore | frontend/src/pages/Index.tsx:76-80 | a fetch is issued exactly when not loading and more content exists, always for page 2 of the preferred categories |
| IndexView.Grid | frontend/src/pages/Index.tsx:126-136 | only the feed gets a load-more callback and the store's `hasMore`; other sections get none and `hasMore` false; items, title and message follow the section |
| IndexView.ScrollTriggerIssuesFetch | frontend/src/pages/Index.tsx:132-133 | outside the feed scrolling never triggers; in the feed every trigger passes the load-more guard |
| IndexView.NoLoadMoreAfterEmptyPage | frontend/src/pages/Index.tsx:76-80 | after a fetch returns nothing, load-more issues nothing |
| IndexView.FetchedPageKeepsLoadMore | frontend/src/store/slices/contentSlice.ts:96-110 | every successful fetch returns at least the five social posts, so the fulfilled reducer (contentSlice.ts line 221) sets `hasMore` and load-more stays available |
| Pagination.LoadMoreRepeatsPageTwo | frontend/src/pages/Index.tsx:78 | after the first page and one load-more the cursor is at 3, yet both load-mores request page 2 |
| Pagination.AppendingSamePageTwiceRepeatsIds | frontend/src/store/slices/contentSlice.ts:211-213 | appending the same non-empty page twice leaves repeated ids in the items |
| Pagination.FirstPageAppendedAfterPaging | frontend/src/store/slices/contentSlice.ts:209-213 | the answer to a page-1 request arriving with the cursor past 1 is appended to the old items, not substituted for them |
| Pagination.LoadMoreNext | frontend/src/pages/Index.tsx:76-80 | corrected load-more: issued under the same guard, for the page the cursor names |
| Pagination.FetchFulfilledFor | frontend/src/store/slices/contentSlice.ts:207-223 | corrected fulfil: a page-1 answer replaces the items, any other page appends; the cursor moves just past the page received; view, `hasMore` and loading as before |
| Pagination.CorrectedAgreesWhenCursorMatches | frontend/src/store/slices/contentSlice.ts:209-222 | when the request matches the cursor the corrected fulfil equals the original |
| Pagination.LoadMoreNextAdvances | frontend/src/pages/Index.tsx:76-80 | with the corrected pair each successful load-more makes the next request one page further |
| Pagination.CategoryChangeRestartsPaging | frontend/src/pages/Index.tsx:41-45 | with the corrected pair a category change always replaces the feed and restarts paging at page 2 |
| Pagination.CategoryChangeLeavesFavoritesBehind | frontend/src/store/slices/contentSlice.ts:207-223 | with the corrected reducer a category change replaces the items but not `favorites`, so earlier favourites no longer agree with the fresh items |
| Pagination.ScrollLoadsCursorPage | frontend/src/hooks/useInfiniteScroll.ts:15-23 | in the feed a scroll trigger followed by a corrected fetch appends the page and advances the cursor by one |
| ViewSync.ReduceKeepsViewPermutes | frontend/src/store/slices/contentSlice.ts:168-230 | every action but a favourite toggle keeps the search results a permutation of the search view of the items |
| ViewSync.ToggleLeavesSearchResultsStale | frontend/src/store/slices/contentSlice.ts:178-190 | under a query, toggling a matching item (unique ids) leaves its new version out of the search results although it matches |
| ViewSync.ToggleFavoriteInView | frontend/src/store/slices/contentSlice.ts:178-190 | corrected toggle: items and favourites as in the original, and the toggled item's old copy in the search results replaced by the new one |
| ViewSync.ToggleInViewKeepsViewPermutes | frontend/src/store/slices/contentSlice.ts:178-190 | the corrected toggle keeps the search results a permutation of the search view of the items |
| ViewSync.ViewAfterFlip | frontend/src/store/slices/contentSlice.ts:170-175 | changing one item's flag swaps its copy in the search view when it matches, and leaves the view alone when it does not |
| Reorder.DragInTrendingInsertsUndefined | frontend/src/store/slices/contentSlice.ts:191-196 | with trending loaded while the first feed page is pending, dragging trending card 0 onto 1 inserts `undefined` at the head of the empty item list |
| Reorder.DragOutsideFeedMovesFeed | frontend/src/pages/Index.tsx:131 | a drag in the trending or favourites grid leaves the shown list as it was and swaps two feed items instead |
| Reorder.WithDisplayed | frontend/src/pages/Index.tsx:82-91 | writing a list back into the section it came from makes it that section's shown list |
| Reorder.ReorderDisplayed | frontend/src/components/ContentGrid.tsx:43-47 | corrected reorder: the card moves within the list the section's grid shows, nothing else changes, and a start index naming no card changes nothing |
| Reorder.ReorderDisplayedAgreesInFeed | frontend/src/store/slices/contentSlice.ts:191-196 | in the feed the corrected reorder equals the original whenever the original does not insert `undefined` |
| Reorder.ReorderDisplayedBack | frontend/src/components/ContentGrid.tsx:43-47 | the corrected reorder keeps the shown cards, and dragging a card back restores the whole state |

## Findings

| source | as written | input that shows it | evidently intended | confidence | as-written member | corrected member |
|---|---|---|---|---|---|---|
| frontend/src/pages/Index.tsx:78 | load-more always requests `page: 2` | first page loaded, one load-more done (cursor at 3); the next load-more requests page 2 again, and appending it repeats every id of that page | request the page the store's `currentPage` names | high, not executed | Pagination.LoadMoreRepeatsPageTwo | Pagination.LoadMoreNext |
| frontend/src/store/slices/contentSlice.ts:209-213 | replace-or-append is decided by the store's cursor, not the requested page | cursor at 2 with items [A]; the categories change, page 1 is requested and answered with [B]; items become [A, B] | a page-1 answer replaces the items and restarts the cursor | medium, not executed | Pagination.FirstPageAppendedAfterPaging | Pagination.FetchFulfilledFor |
| frontend/src/store/slices/contentSlice.ts:178-181 | the toggle changes the item in `items` only; `filteredItems` keeps the old copy | query "a", one item titled "a" that is not a favourite; toggling it makes the item a favourite while the displayed search result still shows it as not a favourite | the search results show the toggled flag | medium, not executed | ViewSync.ToggleLeavesSearchResultsStale | ViewSync.ToggleFavoriteInView |
| frontend/src/store/slices/contentSlice.ts:193-195 | every section's grid reorders the feed's list with indices into the list that grid shows | trending loads while the first feed page is pending; dragging trending card 0 onto 1 finds no card 0 in the empty item list and inserts `undefined` there | move the card within the list the dragged grid shows | high, not executed | Reorder.DragInTrendingInsertsUndefined | Reorder.ReorderDisplayed |

The corrected members are the ones the composed properties use: `Pagination.LoadMoreNextAdvances`, `Pagination.CategoryChangeRestartsPaging`, `Pagination.ScrollLoadsCursorPage`, `Pagination.CategoryChangeLeavesFavoritesBehind`, `ViewSync.ToggleInViewKeepsViewPermutes` and `Reorder.ReorderDisplayedBack`.
The store reducers themselves are kept as written so that their rows describe the code.

## Left out

- ContentSlice.CursorOneMeansEmpty: holds only on runs in which no reorder inserts `undefined`. `Run` stops at such a reorder because an item sequence cannot hold `undefined`, while the code goes on with `[undefined]` as its items at cursor 1.
- ContentSlice.ReduceKeepsEmptyBeforeFirstPage: says nothing about a reorder that inserts `undefined`, for the same reason: `Reduce` yields no state for it.
- The HTTP calls are left out: to the news gateway, to the movie search API and the gateway route in `backend/server.js`. Their results are parameters: a per-category `Result` for the gateway and one `Result` for the movie search. A rejected request is a `Failure` carrying its message. A malformed response (no `articles` field) counts as a failure too.
- The random choice of movie search term is left out. It only shapes the request, and the response is a parameter.
- The clock is a single `now` string per aggregation. The code reads the clock separately for each movie and social item.
- Date parsing in the sort is a caller-supplied function from timestamp to integer. Invalid dates, which the code compares as NaN, are not modelled.
- Aggregate.SortByTime: states newest-first order and permutation, not stability, although JavaScript's sort is stable.
- Text.Lower: lower-cases ASCII letters only; JavaScript's `toLowerCase` folds all of Unicode.
- ContentSlice.ReorderContent: when the start index names no card, the outcome records only where `undefined` lands, not the resulting list, because an item sequence cannot hold `undefined`. `Reduce` and `Run` stop there.
- Reading and writing local storage is modelled as one slot holding missing, unparsable or parsed data. Parsed data carries only the four preference fields: unknown keys and wrongly typed values in stored JSON are not modelled.
- The dark-mode class on the document element is left out, because it is a side effect outside the store.
- The Redux store wiring and immer drafts are left out. In particular, arrays shared between `items` and `filteredItems` are not modelled: every field is an immutable value.
- Completion-order races between fetches in flight are left out, as are the lack of cancellation and the HTTP timeout. These are runtime scheduling, not reducer logic.
- The trending fetch has no pending or rejected handler in the store, so its failure changes nothing. `Aggregate.FetchTrending` still reports the failure.
- Rendering, animation, drag visuals, toasts, the 300 ms search debounce and the effect that forwards the debounced input to `setSearchQuery` are left out. So are the settings panel, the layout and the search bar components.
- InfiniteScroll.HandleScroll: scroll offsets are integers; browsers may report fractional `scrollTop`.
- The `rating` field is always absent in the code; it is kept as an integer option that is never filled.

=== FILE: aggregate.dfy ===
/** The content aggregator: turns the news gateway's articles, the movie search results and
    synthesised social posts into one list of items, newest first. The network calls are
    replaced by their results, passed in as parameters. */
module Aggregate {
  import opened Wrappers
  import opened Text
  import opened Lists
  import opened ContentModel

  /** One article as the news gateway returns it. */
  datatype Article = Article(
    title: string,
    description: Option<string>,
    url: Option<string>,
    urlToImage: Option<string>,
    publishedAt: string,
    author: Option<string>)

  /** One movie search hit. */
  datatype MovieHit = MovieHit(title: string, year: string, poster: string, imdbId: string)

  /** The arguments of one `fetchContent` call. */
  datatype FetchRequest = FetchRequest(categories: seq<string>, page: nat)

  const SocialPostsPerPage: nat := 5

  /** The most movie hits the trending view takes. */
  const TrendingMovieLimit: nat := 3

  // ---------------------------------------------------------------- item synthesis

  function NewsId(category: string, page: nat, i: nat): string {
    "news-" + category + "-" + NatToString(page) + "-" + NatToString(i)
  }

  /** The `i`-th article of `category` on `page`; a missing description becomes empty. */
  function NewsItem(a: Article, category: string, page: nat, i: nat): (r: ContentItem)
    ensures r.id == NewsId(category, page, i) && r.kind == News && r.category == category
    ensures r.title == a.title && r.publishedAt == a.publishedAt
    ensures r.description == (if a.description.Some? then a.description.value else "")
    ensures r.imageUrl == a.urlToImage && r.url == a.url && r.author == a.author
    ensures !r.isFavorite && r.rating.None?
  {
    ContentItem(NewsId(category, page, i), News, a.title, a.description.GetOr(""), a.urlToImage, a.url,
                category, a.publishedAt, false, a.author, None)
  }

  /** One news item per article, in order; the `i`-th carries `i` in its id. */
  function NewsItems(articles: seq<Article>, category: string, page: nat): (r: seq<ContentItem>)
    ensures |r| == |articles|
    ensures forall i :: 0 <= i < |r| ==>
      && r[i].id == NewsId(category, page, i) && r[i].kind == News && r[i].category == category
      && r[i].title == articles[i].title && r[i].publishedAt == articles[i].publishedAt
      && r[i].description == (if articles[i].description.Some? then articles[i].description.value else "")
      && r[i].imageUrl == articles[i].urlToImage && r[i].url == articles[i].url
      && !r[i].isFavorite
    ensures forall i :: 0 <= i < |r| ==> r[i] == NewsItem(articles[i], category, page, i)
  {
    seq(|articles|, i requires 0 <= i < |articles| => NewsItem(articles[i], category, page, i))
  }

  /** A movie hit; the poster placeholder `N/A` becomes an empty image URL. */
  function MovieItem(m: MovieHit, now: string): (r: ContentItem)
    ensures r.imageUrl == Some(if m.poster == "N/A" then "" else m.poster)
    ensures r.id == "movie-" + m.imdbId && r.kind == Movie && r.category == "entertainment"
    ensures r.title == m.title && r.description == "Year: " + m.year
    ensures r.url.None? && r.author.None? && r.rating.None?
    ensures !r.isFavorite && r.publishedAt == now
  {
    ContentItem("movie-" + m.imdbId, Movie, m.title, "Year: " + m.year,
                Some(if m.poster != "N/A" then m.poster else ""), None,
                "entertainment", now, false, None, None)
  }

  /** The movie items; a response without a `Search` list contributes none. */
  function MovieItems(hits: Option<seq<MovieHit>>, now: string): (r: seq<ContentItem>)
    ensures hits.None? ==> r == []
    ensures hits.Some? ==> |r| == |hits.value| && forall i :: 0 <= i < |r| ==> r[i] == MovieItem(hits.value[i], now)
  {
    match hits
    case None => []
    case Some(ms) => seq(|ms|, i requires 0 <= i < |ms| => MovieItem(ms[i], now))
  }

  function SocialId(page: nat, i: nat): string {
    "social-" + NatToString(page) + "-" + NatToString(i)
  }

  /** The number in the placeholder image URL of social post `i` on `page`. */
  function SocialImageKey(page: nat, i: nat): nat {
    page * 10 + i + 200
  }

  /** Social post `i` of `page`, numbered from 1 in its texts and author. */
  function SocialItem(page: nat, i: nat, now: string): (r: ContentItem)
    ensures r.id == SocialId(page, i) && r.kind == Social && r.category == "social"
    ensures r.title == "#update - Social Post " + NatToString(i + 1)
    ensures r.description == "Social media content update #" + NatToString(i + 1)
    ensures r.author == Some("@user" + NatToString(i + 1))
    ensures r.imageUrl == Some("https://picsum.photos/400/300?random=" + NatToString(page * 10 + i + 200))
    ensures !r.isFavorite && r.publishedAt == now && r.url.None? && r.rating.None?
  {
    ContentItem(SocialId(page, i), Social,
                "#update - Social Post " + NatToString(i + 1),
                "Social media content update #" + NatToString(i + 1),
                Some("https://picsum.photos/400/300?random=" + NatToString(SocialImageKey(page, i))), None,
                "social", now, false, Some("@user" + NatToString(i + 1)), None)
  }

  /** The five placeholder social posts of a page. */
  function SocialItems(page: nat, now: string): (r: seq<ContentItem>)
    ensures |r| == SocialPostsPerPage
    ensures forall i :: 0 <= i < |r| ==>
      r[i].id == SocialId(page, i) && r[i].kind == Social && r[i].category == "social" && !r[i].isFavorite
    ensures forall i :: 0 <= i < |r| ==> r[i] == SocialItem(page, i, now)
  {
    seq(SocialPostsPerPage, i requires 0 <= i < SocialPostsPerPage => SocialItem(page, i, now))
  }

  /** Social ids never collide: the id determines both the page and the index. */
  lemma SocialIdsDistinct(p1: nat, i1: nat, p2: nat, i2: nat)
    requires i1 < SocialPostsPerPage && i2 < SocialPostsPerPage
    requires SocialId(p1, i1) == SocialId(p2, i2)
    ensures p1 == p2 && i1 == i2
  {
    var s1, s2 := NatToString(p1), NatToString(p2);
    var a := "social-" + s1 + "-" + NatToString(i1);
    var b := "social-" + s2 + "-" + NatToString(i2);
    assert a == SocialId(p1, i1) && b == SocialId(p2, i2);
    assert |a| == 9 + |s1| && |b| == 9 + |s2|;
    assert a[|a| - 1] == b[|b| - 1];
    assert DigitChar(i1) == DigitChar(i2);
    assert a[7..7 + |s1|] == s1;
    assert b[7..7 + |s2|] == s2;
    NatToStringInjective(p1, p2);
  }

  /** The placeholder image keys never collide either, across pages and indices. */
  lemma SocialImageKeysDistinct(p1: nat, i1: nat, p2: nat, i2: nat)
    requires i1 < SocialPostsPerPage && i2 < SocialPostsPerPage
    requires SocialImageKey(p1, i1) == SocialImageKey(p2, i2)
    ensures p1 == p2 && i1 == i2
  {
  }

  /** Within one category's batch, distinct positions give distinct news ids. */
  lemma NewsIdsDistinct(category: string, page: nat, i: nat, j: nat)
    requires NewsId(category, page, i) == NewsId(category, page, j)
    ensures i == j
  {
    var prefix := "news-" + category + "-" + NatToString(page) + "-";
    assert NewsId(category, page, i) == prefix + NatToString(i);
    assert NewsId(category, page, j) == prefix + NatToString(j);
    assert NatToString(i) == NewsId(category, page, i)[|prefix|..];
    assert NatToString(j) == NewsId(category, page, j)[|prefix|..];
    NatToStringInjective(i, j);
  }

  // ---------------------------------------------------------------- sorting

  /** Newest first, by the timestamp `time` assigns to `publishedAt`. */
  ghost predicate SortedByTimeDesc(s: seq<ContentItem>, time: string -> int) {
    forall i, j :: 0 <= i < j < |s| ==> time(s[i].publishedAt) >= time(s[j].publishedAt)
  }

  function InsertByTime(x: ContentItem, s: seq<ContentItem>, time: string -> int): (r: seq<ContentItem>)
    requires SortedByTimeDesc(s, time)
    ensures SortedByTimeDesc(r, time)
    ensures multiset(r) == multiset(s) + multiset{x}
    ensures |r| == |s| + 1
    ensures |r| > 0 && (r[0] == x || (|s| > 0 && r[0] == s[0]))
  {
    if |s| == 0 || time(x.publishedAt) >= time(s[0].publishedAt) then [x] + s
    else
      var rest := InsertByTime(x, s[1..], time);
      assert s == [s[0]] + s[1..];
      [s[0]] + rest
  }

  /** `sort((a, b) => time(b) - time(a))`. */
  function SortByTime(s: seq<ContentItem>, time: string -> int): (r: seq<ContentItem>)
    ensures SortedByTimeDesc(r, time)
    ensures multiset(r) == multiset(s)
    ensures |r| == |s|
  {
    if |s| == 0 then []
    else
      assert s == [s[0]] + s[1..];
      InsertByTime(s[0], SortByTime(s[1..], time), time)
  }

  // ---------------------------------------------------------------- fetchContent

  /** Each requested category's news items, in the order the categories are requested. */
  function NewsBatches(categories: seq<string>, page: nat, gateway: string -> Result<seq<Article>>)
    : seq<seq<ContentItem>>
    requires forall i :: 0 <= i < |categories| ==> gateway(categories[i]).Success?
  {
    seq(|categories|, i requires 0 <= i < |categories| => NewsItems(gateway(categories[i]).value, categories[i], page))
  }

  /** The news of each category in turn, stopping at the first rejected request. */
  function CollectNews(categories: seq<string>, page: nat, gateway: string -> Result<seq<Article>>)
    : (r: Result<seq<ContentItem>>)
    ensures r.Success? <==> forall i :: 0 <= i < |categories| ==> gateway(categories[i]).Success?
    ensures r.Failure? ==>
      exists k :: 0 <= k < |categories| && gateway(categories[k]).Failure?
        && r.error == gateway(categories[k]).error
        && forall j :: 0 <= j < k ==> gateway(categories[j]).Success?
    ensures r.Success? ==> r.value == Concat(NewsBatches(categories, page, gateway))
    ensures r.Success? ==> forall i :: 0 <= i < |r.value| ==> r.value[i].kind == News && !r.value[i].isFavorite
    decreases |categories|
  {
    if |categories| == 0 then Success([])
    else match gateway(categories[0])
      case Failure(e) => Failure(e)
      case Success(articles) =>
        match CollectNews(categories[1..], page, gateway)
        case Failure(e) =>
          assert forall j :: 1 <= j < |categories| ==> categories[j] == categories[1..][j - 1];
          Failure(e)
        case Success(rest) =>
          assert forall j :: 1 <= j < |categories| ==> categories[j] == categories[1..][j - 1];
          assert NewsBatches(categories, page, gateway)[1..] == NewsBatches(categories[1..], page, gateway);
          Success(NewsItems(articles, categories[0], page) + rest)
  }

  /** `fetchContent`: the news of every requested category, then the movie hits, then
      five social posts, sorted newest first. Any rejected request rejects the whole call;
      the movie search is only issued once all news requests have succeeded. */
  function FetchContent(req: FetchRequest, gateway: string -> Result<seq<Article>>,
                        movieSearch: Result<Option<seq<MovieHit>>>, now: string, time: string -> int)
    : (r: Result<seq<ContentItem>>)
    ensures r.Success? <==>
      (forall i :: 0 <= i < |req.categories| ==> gateway(req.categories[i]).Success?) && movieSearch.Success?
    ensures CollectNews(req.categories, req.page, gateway).Failure? ==>
      r == Failure(CollectNews(req.categories, req.page, gateway).error)
    ensures CollectNews(req.categories, req.page, gateway).Success? && movieSearch.Failure? ==>
      r == Failure(movieSearch.error)
    ensures r.Success? ==>
      multiset(r.value) == multiset(CollectNews(req.categories, req.page, gateway).value
                                    + MovieItems(movieSearch.value, now) + SocialItems(req.page, now))
    ensures r.Success? ==> SortedByTimeDesc(r.value, time)
    ensures r.Success? ==> forall i :: 0 <= i < |r.value| ==> !r.value[i].isFavorite
  {
    match CollectNews(req.categories, req.page, gateway)
    case Failure(e) => Failure(e)
    case Success(news) =>
      match movieSearch
      case Failure(e) => Failure(e)
      case Success(hits) =>
        var all := news + MovieItems(hits, now) + SocialItems(req.page, now);
        var sorted := SortByTime(all, time);
        forall i | 0 <= i < |sorted|
          ensures !sorted[i].isFavorite
        {
          assert sorted[i] in multiset(all);
        }
        Success(sorted)
  }

  /** The social posts are always part of a successful batch: exactly five items with the
      page's social ids. */
  lemma FetchContentHasSocialPosts(req: FetchRequest, gateway: string -> Result<seq<Article>>,
                                   movieSearch: Result<Option<seq<MovieHit>>>, now: string, time: string -> int, i: nat)
    requires i < SocialPostsPerPage
    requires FetchContent(req, gateway, movieSearch, now, time).Success?
    ensures SocialItem(req.page, i, now) in FetchContent(req, gateway, movieSearch, now, time).value
  {
    var r := FetchContent(req, gateway, movieSearch, now, time).value;
    var news := CollectNews(req.categories, req.page, gateway).value;
    var all := news + MovieItems(movieSearch.value, now) + SocialItems(req.page, now);
    assert all[|all| - SocialPostsPerPage + i] == SocialItem(req.page, i, now);
    assert SocialItem(req.page, i, now) in multiset(all);
  }

  /** Every article of every requested category is in a successful batch (all requests
      succeed), as its news item. */
  lemma FetchContentHasNews(req: FetchRequest, gateway: string -> Result<seq<Article>>,
                            movieSearch: Result<Option<seq<MovieHit>>>, now: string, time: string -> int,
                            c: nat, j: nat)
    requires (forall i :: 0 <= i < |req.categories| ==> gateway(req.categories[i]).Success?) && movieSearch.Success?
    requires c < |req.categories| && j < |gateway(req.categories[c]).value|
    ensures NewsItem(gateway(req.categories[c]).value[j], req.categories[c], req.page, j)
            in FetchContent(req, gateway, movieSearch, now, time).value
  {
    var batches := NewsBatches(req.categories, req.page, gateway);
    var news := CollectNews(req.categories, req.page, gateway).value;
    ConcatContains(batches, c, j);
    var x := batches[c][j];
    var all := news + MovieItems(movieSearch.value, now) + SocialItems(req.page, now);
    assert x in all;
    assert x in multiset(all);
  }

  /** Within one category's page the news ids are all different. */
  lemma NewsItemsUniqueIds(articles: seq<Article>, category: string, page: nat)
    ensures UniqueIds(NewsItems(articles, category, page))
  {
    var r := NewsItems(articles, category, page);
    forall i, j | 0 <= i < j < |r|
      ensures r[i].id != r[j].id
    {
      if r[i].id == r[j].id {
        NewsIdsDistinct(category, page, i, j);
      }
    }
  }

  // ---------------------------------------------------------------- fetchTrending

  /** The `i`-th headline; unlike the feed's news it is filed under category "news". */
  function TrendingNewsItem(a: Article, i: nat): (r: ContentItem)
    ensures r.id == "trending-news-" + NatToString(i) && r.kind == News && r.category == "news"
    ensures r.title == a.title && r.publishedAt == a.publishedAt
    ensures r.description == (if a.description.Some? then a.description.value else "")
    ensures r.imageUrl == a.urlToImage && r.url == a.url && r.author == a.author && !r.isFavorite
    ensures r.rating.None?
  {
    ContentItem("trending-news-" + NatToString(i), News, a.title, a.description.GetOr(""), a.urlToImage, a.url,
                "news", a.publishedAt, false, a.author, None)
  }

  /** A trending movie hit: as in the feed, but with a `trending-movie-` id. */
  function TrendingMovieItem(m: MovieHit, now: string): (r: ContentItem)
    ensures r.id == "trending-movie-" + m.imdbId && r.kind == Movie && r.category == "entertainment"
    ensures r.imageUrl == Some(if m.poster == "N/A" then "" else m.poster)
    ensures r == MovieItem(m, now).(id := r.id)
  {
    ContentItem("trending-movie-" + m.imdbId, Movie, m.title, "Year: " + m.year,
                Some(if m.poster != "N/A" then m.poster else ""), None,
                "entertainment", now, false, None, None)
  }

  /** `fetchTrending`: the gateway's default headlines followed by at most three movie hits
      for the fixed term "trending"; no social posts and no sorting. */
  function FetchTrending(headlines: Result<seq<Article>>, movieSearch: Result<Option<seq<MovieHit>>>, now: string)
    : (r: Result<seq<ContentItem>>)
    ensures r.Success? <==> headlines.Success? && movieSearch.Success?
    ensures headlines.Failure? ==> r == Failure(headlines.error)
    ensures headlines.Success? && movieSearch.Failure? ==> r == Failure(movieSearch.error)
    ensures r.Success? ==>
      var n := |headlines.value|;
      var m := if movieSearch.value.Some? then |movieSearch.value.value| else 0;
      && |r.value| == n + (if m < TrendingMovieLimit then m else TrendingMovieLimit)
      && (forall i :: 0 <= i < n ==> r.value[i] == TrendingNewsItem(headlines.value[i], i))
      && (forall i :: 0 <= i < n ==> r.value[i].kind == News && r.value[i].id == "trending-news-" + NatToString(i))
      && (forall i :: n <= i < |r.value| ==>
            r.value[i].kind == Movie && r.value[i] == TrendingMovieItem(movieSearch.value.value[i - n], now))
  {
    match headlines
    case Failure(e) => Failure(e)
    case Success(articles) =>
      match movieSearch
      case Failure(e) => Failure(e)
      case Success(hits) =>
        var news := seq(|articles|, i requires 0 <= i < |articles| => TrendingNewsItem(articles[i], i));
        var ms := match hits
          case None => []
          case Some(h) => if |h| < TrendingMovieLimit then h else h[..TrendingMovieLimit];
        Success(news + seq(|ms|, i requires 0 <= i < |ms| => TrendingMovieItem(ms[i], now)))
  }
}

=== FILE: content_model.dfy ===
/** The unified item shape shared by news, movie and social content, and lookups by id. */
module ContentModel {
  import opened Wrappers
  import opened Lists

  datatype ContentType = News | Movie | Social

  /** One card of the dashboard. `rating` is never filled in by the aggregator. */
  datatype ContentItem = ContentItem(
    id: string,
    kind: ContentType,
    title: string,
    description: string,
    imageUrl: Option<string>,
    url: Option<string>,
    category: string,
    publishedAt: string,
    isFavorite: bool,
    author: Option<string>,
    rating: Option<int>)

  /** `items.find(item => item.id === id)`, as the index of the first match. */
  function IndexOfId(items: seq<ContentItem>, id: string): (r: Option<nat>)
    ensures r.Some? ==> r.value < |items| && items[r.value].id == id
    ensures r.Some? ==> forall j :: 0 <= j < r.value ==> items[j].id != id
    ensures r.None? ==> forall j :: 0 <= j < |items| ==> items[j].id != id
  {
    if |items| == 0 then None
    else if items[0].id == id then Some(0)
    else match IndexOfId(items[1..], id)
      case None => None
      case Some(k) => Some(k + 1)
  }

  function IdIs(id: string): ContentItem -> bool {
    (item: ContentItem) => item.id == id
  }

  function IdIsNot(id: string): ContentItem -> bool {
    (item: ContentItem) => item.id != id
  }

  /** How many entries carry `id`. */
  function CountId(items: seq<ContentItem>, id: string): nat {
    CountBy(items, IdIs(id))
  }

  /** Every entry either carries `id` or does not. */
  lemma {:induction false} CountIdComplement(items: seq<ContentItem>, id: string)
    ensures CountBy(items, IdIsNot(id)) + CountId(items, id) == |items|
    decreases |items|
  {
    if |items| > 0 {
      CountIdComplement(items[1..], id);
    }
  }

  /** `items.filter(x => x.id !== id)`: every entry with another id, in order and with its
      multiplicity, and none with `id`. */
  function WithoutId(items: seq<ContentItem>, id: string): (r: seq<ContentItem>)
    ensures IsSubsequence(r, items)
    ensures forall i :: 0 <= i < |r| ==> r[i].id != id
    ensures forall i :: 0 <= i < |items| && items[i].id != id ==> items[i] in r
    ensures |r| == |items| - CountId(items, id)
  {
    var r := FilterBy(items, IdIsNot(id));
    assert forall i :: 0 <= i < |r| ==> IdIsNot(id)(r[i]);
    CountIdComplement(items, id);
    r
  }

  /** The removal is pinned down by its contract: a subsequence of `items` without `id`
      that keeps as many entries as carry another id is the removal. */
  lemma WithoutIdUnique(items: seq<ContentItem>, id: string, a: seq<ContentItem>)
    requires IsSubsequence(a, items)
    requires forall i :: 0 <= i < |a| ==> a[i].id != id
    requires |a| == |items| - CountId(items, id)
    ensures a == WithoutId(items, id)
  {
    CountIdComplement(items, id);
    assert forall i :: 0 <= i < |a| ==> IdIsNot(id)(a[i]);
    FilterByUnique(items, IdIsNot(id), a);
  }

  /** The set of ids present. */
  function Ids(items: seq<ContentItem>): set<string> {
    set i | 0 <= i < |items| :: items[i].id
  }

  predicate UniqueIds(items: seq<ContentItem>) {
    forall i, j :: 0 <= i < j < |items| ==> items[i].id != items[j].id
  }

  /** The lookup finds nothing exactly when no entry carries the id. */
  lemma IndexOfIdNoneIffCountZero(items: seq<ContentItem>, id: string)
    ensures IndexOfId(items, id).None? <==> CountId(items, id) == 0
    ensures IndexOfId(items, id).None? <==> id !in Ids(items)
  {
    CountByZero(items, IdIs(id));
    if IndexOfId(items, id).Some? {
      assert items[IndexOfId(items, id).value].id in Ids(items);
    }
  }

  /** The lookup depends only on the ids, position by position. */
  lemma {:induction false} IndexOfIdSameIds(a: seq<ContentItem>, b: seq<ContentItem>, id: string)
    requires |a| == |b|
    requires forall i :: 0 <= i < |a| ==> a[i].id == b[i].id
    ensures IndexOfId(a, id) == IndexOfId(b, id)
    decreases |a|
  {
    if |a| > 0 {
      IndexOfIdSameIds(a[1..], b[1..], id);
    }
  }

  /** Deleting entries cannot introduce a repeated id. */
  lemma {:induction false} SubsequenceUniqueIds(a: seq<ContentItem>, b: seq<ContentItem>)
    requires IsSubsequence(a, b)
    requires UniqueIds(b)
    ensures UniqueIds(a)
    decreases |b|
  {
    if |a| > 0 {
      assert UniqueIds(b[1..]);
      if a[0] == b[0] && IsSubsequence(a[1..], b[1..]) {
        SubsequenceUniqueIds(a[1..], b[1..]);
        SubsequenceMembers(a[1..], b[1..]);
        forall j | 1 <= j < |a|
          ensures a[0].id != a[j].id
        {
          assert a[j] == a[1..][j - 1];
          var m :| 0 <= m < |b[1..]| && b[1..][m] == a[j];
          assert b[m + 1] == a[j];
        }
      } else {
        SubsequenceUniqueIds(a, b[1..]);
      }
    }
  }

  /** Appending one entry adds its id. */
  lemma IdsAppend(items: seq<ContentItem>, x: ContentItem)
    ensures Ids(items + [x]) == Ids(items) + {x.id}
    ensures x.id !in Ids(items) && UniqueIds(items) ==> UniqueIds(items + [x])
  {
    var r := items + [x];
    assert r[|items|] == x;
    forall y | y in Ids(items)
      ensures y in Ids(r)
    {
      var i :| 0 <= i < |items| && items[i].id == y;
      assert r[i] == items[i];
    }
    if x.id !in Ids(items) && UniqueIds(items) {
      forall i, j | 0 <= i < j < |r|
        ensures r[i].id != r[j].id
      {
        if j == |items| {
          assert items[i].id in Ids(items);
        }
      }
    }
  }

  /** Dropping the entries with `id` removes exactly that id and keeps ids unique. */
  lemma IdsWithout(items: seq<ContentItem>, id: string)
    ensures Ids(WithoutId(items, id)) == Ids(items) - {id}
    ensures UniqueIds(items) ==> UniqueIds(WithoutId(items, id))
  {
    var w := WithoutId(items, id);
    SubsequenceMembers(w, items);
    forall x | x in Ids(w)
      ensures x in Ids(items) - {id}
    {
      var i :| 0 <= i < |w| && w[i].id == x;
      assert IdIsNot(id)(w[i]);
      var j :| 0 <= j < |items| && items[j] == w[i];
    }
    forall x | x in Ids(items) - {id}
      ensures x in Ids(w)
    {
      var j :| 0 <= j < |items| && items[j].id == x;
      assert IdIsNot(id)(items[j]);
      var i :| 0 <= i < |w| && w[i] == items[j];
    }
    if UniqueIds(items) {
      SubsequenceUniqueIds(w, items);
    }
  }
}

=== FILE: content_slice.dfy ===
/** The content store: items, their search view, favourites, trending items, the
    pagination cursor and the loading/error status, with one pure reducer per action. */
module ContentSlice {
  import opened Wrappers
  import opened Lists
  import opened ContentModel
  import opened Search

  datatype ContentState = ContentState(
    items: seq<ContentItem>,
    filteredItems: seq<ContentItem>,
    favorites: seq<ContentItem>,
    trending: seq<ContentItem>,
    loading: bool,
    error: Option<string>,
    searchQuery: string,
    currentPage: nat,
    hasMore: bool)

  const InitialState: ContentState := ContentState([], [], [], [], false, None, "", 1, true)

  const DefaultFetchError: string := "Failed to fetch content"

  /** `filteredItems` is the search view of `items` for the current query. */
  ghost predicate ViewSynced(s: ContentState) {
    s.filteredItems == SearchView(s.items, s.searchQuery)
  }

  /** The ids of the items currently flagged as favourite. */
  function FavoriteIds(items: seq<ContentItem>): set<string> {
    set i | 0 <= i < |items| && items[i].isFavorite :: items[i].id
  }

  /** `favorites` lists each favourite item of `items` once, and nothing else. */
  ghost predicate FavoritesAgree(s: ContentState) {
    UniqueIds(s.favorites) && Ids(s.favorites) == FavoriteIds(s.items)
  }

  /** The list a drag-and-drop reorders: the search results while a query is set. */
  function ActiveList(s: ContentState): seq<ContentItem> {
    if |s.searchQuery| > 0 then s.filteredItems else s.items
  }

  // ---------------------------------------------------------------- reducers

  /** `setSearchQuery`: store the query and recompute the search view. */
  function SetSearchQuery(s: ContentState, query: string): (r: ContentState)
    ensures r.searchQuery == query
    ensures |query| == 0 ==> r.filteredItems == s.items
    ensures |query| > 0 ==> IsSubsequence(r.filteredItems, s.items)
    ensures |query| > 0 ==> forall i :: 0 <= i < |r.filteredItems| ==> Matches(r.filteredItems[i], query)
    ensures |query| > 0 ==> forall i :: 0 <= i < |s.items| ==> (s.items[i] in r.filteredItems <==> Matches(s.items[i], query))
    ensures |query| > 0 ==> |r.filteredItems| == CountBy(s.items, Matcher(query))
    ensures ViewSynced(r)
    ensures r == s.(searchQuery := query, filteredItems := r.filteredItems)
  {
    s.(searchQuery := query, filteredItems := SearchView(s.items, query))
  }

  /** The new favourites list after the item with `id` got favourite flag `nowFavorite`. */
  function SyncFavorites(favorites: seq<ContentItem>, flipped: ContentItem, nowFavorite: bool): (r: seq<ContentItem>)
    ensures nowFavorite ==> CountId(r, flipped.id) == (if CountId(favorites, flipped.id) == 0 then 1 else CountId(favorites, flipped.id))
    ensures !nowFavorite ==> CountId(r, flipped.id) == 0
    ensures WithoutId(r, flipped.id) == WithoutId(favorites, flipped.id)
    ensures nowFavorite && CountId(favorites, flipped.id) == 0 ==> r == favorites + [flipped]
    ensures nowFavorite && CountId(favorites, flipped.id) > 0 ==> r == favorites
  {
    var id := flipped.id;
    IndexOfIdNoneIffCountZero(favorites, id);
    if nowFavorite then
      if IndexOfId(favorites, id).Some? then favorites
      else
        CountByConcat(favorites, [flipped], IdIs(id));
        FilterByConcat(favorites, [flipped], IdIsNot(id));
        favorites + [flipped]
    else
      var r := WithoutId(favorites, id);
      CountByZero(r, IdIs(id));
      FilterByAll(r, IdIsNot(id));
      r
  }

  /** `toggleFavorite`: flip the flag of the first item with `id` and keep `favorites` in step. */
  function ToggleFavorite(s: ContentState, id: string): (r: ContentState)
    ensures IndexOfId(s.items, id).None? ==> r == s
    ensures IndexOfId(s.items, id).Some? ==>
      var k := IndexOfId(s.items, id).value;
      && |r.items| == |s.items|
      && r.items[k] == s.items[k].(isFavorite := !s.items[k].isFavorite)
      && (forall j :: 0 <= j < |s.items| && j != k ==> r.items[j] == s.items[j])
      && (r.items[k].isFavorite ==> CountId(r.favorites, id) == (if CountId(s.favorites, id) == 0 then 1 else CountId(s.favorites, id)))
      && (!r.items[k].isFavorite ==> CountId(r.favorites, id) == 0)
      && WithoutId(r.favorites, id) == WithoutId(s.favorites, id)
      && (r.items[k].isFavorite && CountId(s.favorites, id) == 0 ==> r.favorites == s.favorites + [r.items[k]])
      && (r.items[k].isFavorite && CountId(s.favorites, id) > 0 ==> r.favorites == s.favorites)
      && r == s.(items := r.items, favorites := r.favorites)
  {
    match IndexOfId(s.items, id)
    case None => s
    case Some(k) =>
      var flipped := s.items[k].(isFavorite := !s.items[k].isFavorite);
      s.(items := s.items[k := flipped], favorites := SyncFavorites(s.favorites, flipped, flipped.isFavorite))
  }

  /** What a reorder does to the store. When `startIndex` names a card of the active list,
      that card is moved. Otherwise `splice(startIndex, 1)` removes nothing and the
      following `splice` inserts `undefined` into the active list at position `at`; an item
      sequence cannot hold `undefined`, so the outcome records where it lands. */
  datatype ReorderOutcome = Reordered(state: ContentState) | UndefinedInserted(at: nat)

  /** `reorderContent`: move one card of the active list; the other list is left alone. */
  function ReorderContent(s: ContentState, startIndex: nat, endIndex: int): (r: ReorderOutcome)
    ensures r.UndefinedInserted? <==> startIndex >= |ActiveList(s)|
    ensures r.UndefinedInserted? ==> r.at == SpliceIndex(endIndex, |ActiveList(s)|)
    ensures r.Reordered? && |s.searchQuery| > 0 ==> r.state == s.(filteredItems := r.state.filteredItems)
    ensures r.Reordered? && |s.searchQuery| == 0 ==> r.state == s.(items := r.state.items)
    ensures r.Reordered? ==>
      && |ActiveList(r.state)| == |ActiveList(s)|
      && multiset(ActiveList(r.state)) == multiset(ActiveList(s))
      && ActiveList(r.state)[SpliceIndex(endIndex, |ActiveList(s)| - 1)] == ActiveList(s)[startIndex]
      && RemoveAt(ActiveList(r.state), SpliceIndex(endIndex, |ActiveList(s)| - 1)) == RemoveAt(ActiveList(s), startIndex)
  {
    var active := ActiveList(s);
    if startIndex >= |active| then UndefinedInserted(SpliceIndex(endIndex, |active|))
    else
      var moved := Move(active, startIndex, endIndex);
      var t := if |s.searchQuery| > 0 then s.(filteredItems := moved) else s.(items := moved);
      assert ActiveList(t) == moved;
      Reordered(t)
  }

  /** `clearError`. */
  function ClearError(s: ContentState): (r: ContentState)
    ensures r.error.None?
    ensures r == s.(error := r.error)
  {
    s.(error := None)
  }

  /** `fetchContent.pending`: a fetch is in flight and any previous error is dropped. */
  function FetchPending(s: ContentState): (r: ContentState)
    ensures r.loading && r.error.None?
    ensures r == s.(loading := r.loading, error := r.error)
  {
    s.(loading := true, error := None)
  }

  /** `fetchContent.fulfilled`: the first page replaces the items, later pages are appended
      without removing duplicates; the search view is recomputed and the cursor advances. */
  function FetchFulfilled(s: ContentState, payload: seq<ContentItem>): (r: ContentState)
    ensures !r.loading
    ensures s.currentPage == 1 ==> r.items == payload
    ensures s.currentPage != 1 ==> r.items == s.items + payload
    ensures ViewSynced(r)
    ensures r.hasMore <==> |payload| > 0
    ensures r.currentPage == s.currentPage + 1
    ensures r == s.(loading := false, items := r.items, filteredItems := r.filteredItems,
                    hasMore := r.hasMore, currentPage := r.currentPage)
  {
    var items := if s.currentPage == 1 then payload else s.items + payload;
    s.(loading := false, items := items, filteredItems := SearchView(items, s.searchQuery),
       hasMore := |payload| > 0, currentPage := s.currentPage + 1)
  }

  /** `fetchContent.rejected`: stop loading and record the message, or the generic one
      when the rejection carries none (JavaScript treats `''` like a missing message). */
  function FetchRejected(s: ContentState, message: Option<string>): (r: ContentState)
    ensures !r.loading && r.error.Some?
    ensures message.Some? && |message.value| > 0 ==> r.error.value == message.value
    ensures message.None? || message == Some("") ==> r.error.value == DefaultFetchError
    ensures r == s.(loading := false, error := r.error)
  {
    var text := if message.Some? && |message.value| > 0 then message.value else DefaultFetchError;
    s.(loading := false, error := Some(text))
  }

  /** `fetchTrending.fulfilled`. The trending fetch has no pending or rejected handler. */
  function TrendingFulfilled(s: ContentState, payload: seq<ContentItem>): (r: ContentState)
    ensures r.trending == payload
    ensures r == s.(trending := r.trending)
  {
    s.(trending := payload)
  }

  // ---------------------------------------------------------------- actions

  /** The closed set of actions the content store handles. */
  datatype ContentAction =
    | SetQuery(query: string)
    | Toggle(id: string)
    | Reorder(startIndex: nat, endIndex: int)
    | DismissError
    | Pending
    | Fulfilled(payload: seq<ContentItem>)
    | Rejected(message: Option<string>)
    | TrendingLoaded(trendingPayload: seq<ContentItem>)

  /** One action applied to the store, or `None` when it is a reorder that inserts
      `undefined` into the active list. The cursor never moves back. */
  function Reduce(s: ContentState, a: ContentAction): (r: Option<ContentState>)
    ensures r.None? <==> a.Reorder? && a.startIndex >= |ActiveList(s)|
    ensures r.Some? ==> r.value.currentPage >= s.currentPage
  {
    match a
    case SetQuery(q) => Some(SetSearchQuery(s, q))
    case Toggle(id) => Some(ToggleFavorite(s, id))
    case Reorder(i, j) =>
      var o := ReorderContent(s, i, j);
      if o.Reordered? then Some(o.state) else None
    case DismissError => Some(ClearError(s))
    case Pending => Some(FetchPending(s))
    case Fulfilled(p) => Some(FetchFulfilled(s, p))
    case Rejected(m) => Some(FetchRejected(s, m))
    case TrendingLoaded(p) => Some(TrendingFulfilled(s, p))
  }

  /** The store after dispatching `actions` in turn, or `None` once one of them inserts
      `undefined`. */
  function Run(s: ContentState, actions: seq<ContentAction>): Option<ContentState>
    decreases |actions|
  {
    if |actions| == 0 then Some(s)
    else match Run(s, actions[..|actions| - 1])
      case None => None
      case Some(t) => Reduce(t, actions[|actions| - 1])
  }

  // ---------------------------------------------------------------- properties

  /** The cursor never moves back: only a fulfilled fetch moves it, by exactly one. */
  lemma ReduceAdvancesPageOnlyOnFulfil(s: ContentState, a: ContentAction)
    ensures Reduce(s, a).Some? ==> Reduce(s, a).value.currentPage == s.currentPage + (if a.Fulfilled? then 1 else 0)
  {
  }

  /** Only the fetch reducers and the search touch the search view's inputs; the view stays
      synchronised through every action except a favourite toggle or a reorder. */
  lemma ReduceKeepsViewSynced(s: ContentState, a: ContentAction)
    requires ViewSynced(s)
    requires !a.Toggle? && !a.Reorder?
    ensures Reduce(s, a).Some? && ViewSynced(Reduce(s, a).value)
  {
  }

  /** Appending a later page extends the search view by the matching items of the page,
      leaving the earlier search results (and any reordering of them) intact. */
  lemma FulfilledAppendExtendsView(s: ContentState, payload: seq<ContentItem>)
    requires s.currentPage != 1
    requires ViewSynced(s)
    ensures FetchFulfilled(s, payload).filteredItems == s.filteredItems + SearchView(payload, s.searchQuery)
  {
    SearchViewAppend(s.items, payload, s.searchQuery);
  }

  /** Toggling the same id twice restores every item, in particular its favourite flag. */
  lemma ToggleTwiceRestoresItems(s: ContentState, id: string)
    ensures ToggleFavorite(ToggleFavorite(s, id), id).items == s.items
  {
    var t := ToggleFavorite(s, id);
    if IndexOfId(s.items, id).Some? {
      IndexOfIdSameIds(s.items, t.items, id);
    }
  }

  /** When the item's flag and its presence in `favorites` agree, toggling twice also
      restores whether `favorites` holds the id. */
  lemma ToggleTwiceRestoresMembership(s: ContentState, id: string)
    requires IndexOfId(s.items, id).Some?
    requires s.items[IndexOfId(s.items, id).value].isFavorite <==> id in Ids(s.favorites)
    ensures id in Ids(ToggleFavorite(ToggleFavorite(s, id), id).favorites) <==> id in Ids(s.favorites)
  {
    var t := ToggleFavorite(s, id);
    var u := ToggleFavorite(t, id);
    IndexOfIdSameIds(s.items, t.items, id);
    IndexOfIdNoneIffCountZero(s.favorites, id);
    IndexOfIdNoneIffCountZero(t.favorites, id);
    IndexOfIdNoneIffCountZero(u.favorites, id);
  }

  /** The favourite ids after the flag of item `k` (whose id no other item shares) is set to `b`. */
  lemma FavoriteIdsAfterFlip(items: seq<ContentItem>, k: nat, b: bool)
    requires k < |items|
    requires UniqueIds(items)
    ensures FavoriteIds(items[k := items[k].(isFavorite := b)])
      == if b then FavoriteIds(items) + {items[k].id} else FavoriteIds(items) - {items[k].id}
  {
    var after := items[k := items[k].(isFavorite := b)];
    if b {
      assert after[k].id in FavoriteIds(after);
    }
    forall x | x in FavoriteIds(items) && x != items[k].id
      ensures x in FavoriteIds(after)
    {
      var i :| 0 <= i < |items| && items[i].isFavorite && items[i].id == x;
      assert after[i] == items[i];
    }
  }

  /** With unique item ids, a favourite toggle keeps `favorites` equal to the set of
      favourite items, each listed once. */
  lemma ToggleFavoriteKeepsAgreement(s: ContentState, id: string)
    requires UniqueIds(s.items)
    requires FavoritesAgree(s)
    ensures FavoritesAgree(ToggleFavorite(s, id))
    ensures UniqueIds(ToggleFavorite(s, id).items)
  {
    var r := ToggleFavorite(s, id);
    if IndexOfId(s.items, id).Some? {
      var k := IndexOfId(s.items, id).value;
      var b := !s.items[k].isFavorite;
      FavoriteIdsAfterFlip(s.items, k, b);
      assert r.items == s.items[k := s.items[k].(isFavorite := b)];
      IndexOfIdNoneIffCountZero(s.favorites, id);
      if b {
        assert r.favorites == s.favorites + [r.items[k]];
        IdsAppend(s.favorites, r.items[k]);
      } else {
        assert r.favorites == WithoutId(s.favorites, id);
        IdsWithout(s.favorites, id);
      }
    }
  }

  /** A later page made of fresh (non-favourite) items keeps `favorites` in agreement. */
  lemma FulfilledAppendKeepsAgreement(s: ContentState, payload: seq<ContentItem>)
    requires s.currentPage != 1
    requires FavoritesAgree(s)
    requires forall i :: 0 <= i < |payload| ==> !payload[i].isFavorite
    ensures FavoritesAgree(FetchFulfilled(s, payload))
  {
    var items := s.items + payload;
    forall x | x in FavoriteIds(items)
      ensures x in FavoriteIds(s.items)
    {
      var i :| 0 <= i < |items| && items[i].isFavorite && items[i].id == x;
      assert i < |s.items|;
      assert items[i] == s.items[i];
    }
    forall x | x in FavoriteIds(s.items)
      ensures x in FavoriteIds(items)
    {
      var i :| 0 <= i < |s.items| && s.items[i].isFavorite && s.items[i].id == x;
      assert items[i] == s.items[i];
    }
  }

  /** Reordering a card and dragging it back restores the state. */
  lemma ReorderBack(s: ContentState, startIndex: nat, endIndex: nat)
    requires startIndex < |ActiveList(s)| && endIndex < |ActiveList(s)|
    ensures ReorderContent(s, startIndex, endIndex).Reordered?
    ensures ReorderContent(ReorderContent(s, startIndex, endIndex).state, endIndex, startIndex) == Reordered(s)
  {
    if |s.searchQuery| > 0 {
      MoveBack(s.filteredItems, startIndex, endIndex);
    } else {
      MoveBack(s.items, startIndex, endIndex);
    }
  }

  /** While the cursor is still at page 1 no fetch has been fulfilled, so the store is
      empty, unless a reorder has inserted `undefined`, which the model does not follow. */
  ghost predicate EmptyBeforeFirstPage(s: ContentState) {
    s.currentPage >= 1 && (s.currentPage == 1 ==> s.items == [] && s.filteredItems == [] && s.favorites == [])
  }

  /** No action the model follows fills the store while the cursor stays at 1. */
  lemma ReduceKeepsEmptyBeforeFirstPage(s: ContentState, a: ContentAction)
    requires EmptyBeforeFirstPage(s)
    ensures Reduce(s, a).Some? ==> EmptyBeforeFirstPage(Reduce(s, a).value)
  {
  }

  /** On every run in which no reorder inserts `undefined`, a state with the cursor still
      at 1 holds no items, no search results and no favourites, so the replacing branch of
      a fulfilled fetch fills an empty store. A run with such a reorder can reach cursor 1
      with `[undefined]` as its items (see `Reorder.DragInTrendingInsertsUndefined`); the
      model stops that run. */
  lemma {:induction false} CursorOneMeansEmpty(actions: seq<ContentAction>)
    ensures Run(InitialState, actions).Some? ==> EmptyBeforeFirstPage(Run(InitialState, actions).value)
    decreases |actions|
  {
    if |actions| > 0 {
      CursorOneMeansEmpty(actions[..|actions| - 1]);
      match Run(InitialState, actions[..|actions| - 1])
      case None =>
      case Some(t) => ReduceKeepsEmptyBeforeFirstPage(t, actions[|actions| - 1]);
    }
  }
}

=== FILE: index_view.dfy ===
/** The dashboard page: which list, title and empty message each section shows, when a
    load-more is issued, and what the content grid is told about paging. */
module IndexView {
  import opened Wrappers
  import opened Text
  import opened ContentSlice
  import opened UserSlice
  import opened Aggregate
  import opened InfiniteScroll
  import opened ContentModel

  datatype Section = Feed | Trending | Favorites

  /** `getCurrentItems`. */
  function CurrentItems(section: Section, c: ContentState): (r: seq<ContentItem>)
    ensures section == Trending ==> r == c.trending
    ensures section == Favorites ==> r == c.favorites
    ensures section == Feed && |c.searchQuery| > 0 ==> r == c.filteredItems
    ensures section == Feed && |c.searchQuery| == 0 ==> r == c.items
  {
    match section
    case Trending => c.trending
    case Favorites => c.favorites
    case Feed => if |c.searchQuery| > 0 then c.filteredItems else c.items
  }

  const FeedTitle: string := "Your Personalized Feed"

  function SearchTitle(query: string): string {
    "Search Results for \"" + query + "\""
  }

  /** `getCurrentTitle`: fixed texts, except that a search in the feed quotes the query
      after the 20 characters of `Search Results for "`. */
  function CurrentTitle(section: Section, query: string): (t: string)
    ensures section == Trending ==> t == "Trending Content"
    ensures section == Favorites ==> t == "Your Favorites"
    ensures section == Feed && |query| == 0 ==> t == FeedTitle
    ensures section == Feed && |query| > 0 ==>
      |t| == |query| + 21 && t[..20] == "Search Results for \"" && t[20..|t| - 1] == query && t[|t| - 1] == '"'
  {
    match section
    case Trending => "Trending Content"
    case Favorites => "Your Favorites"
    case Feed => if |query| > 0 then SearchTitle(query) else FeedTitle
  }

  const FeedEmptyMessage: string := "No content available. Try adjusting your preferences."

  function NoResultsMessage(query: string): string {
    "No results found for \"" + query + "\""
  }

  /** `getEmptyMessage`: fixed texts, except that a search in the feed quotes the query
      after the 22 characters of `No results found for "`. */
  function EmptyMessage(section: Section, query: string): (e: string)
    ensures section == Trending ==> e == "No trending content available"
    ensures section == Favorites ==> e == "No favorites yet. Heart some content to see it here!"
    ensures section == Feed && |query| == 0 ==> e == FeedEmptyMessage
    ensures section == Feed && |query| > 0 ==>
      |e| == |query| + 23 && e[..22] == "No results found for \"" && e[22..|e| - 1] == query && e[|e| - 1] == '"'
  {
    match section
    case Trending => "No trending content available"
    case Favorites => "No favorites yet. Heart some content to see it here!"
    case Feed => if |query| > 0 then NoResultsMessage(query) else FeedEmptyMessage
  }

  /** In the feed with a query, the title and the empty message both quote the query, and
      the query can be read back from either; without one they are fixed texts. Outside the
      feed the query plays no part. */
  lemma FeedTextsQuoteQuery(q1: string, q2: string)
    ensures |q1| > 0 ==> Contains(CurrentTitle(Feed, q1), q1) && Contains(EmptyMessage(Feed, q1), q1)
    ensures |q1| > 0 && |q2| > 0 && CurrentTitle(Feed, q1) == CurrentTitle(Feed, q2) ==> q1 == q2
    ensures |q1| > 0 && |q2| > 0 && EmptyMessage(Feed, q1) == EmptyMessage(Feed, q2) ==> q1 == q2
    ensures |q1| == 0 ==> CurrentTitle(Feed, q1) == FeedTitle && EmptyMessage(Feed, q1) == FeedEmptyMessage
    ensures forall s :: s != Feed ==> CurrentTitle(s, q1) == CurrentTitle(s, q2) && EmptyMessage(s, q1) == EmptyMessage(s, q2)
  {
    if |q1| > 0 {
      var t, e := CurrentTitle(Feed, q1), EmptyMessage(Feed, q1);
      assert OccursAt(t, q1, 20);
      assert OccursAt(e, q1, 22);
      ContainsIffOccurs(t, q1);
      ContainsIffOccurs(e, q1);
    }
  }

  /** The request issued when the page mounts or the preferred categories change. */
  function InitialRequest(prefs: Preferences): (req: FetchRequest)
    ensures req.page == 1 && req.categories == prefs.categories
  {
    FetchRequest(prefs.categories, 1)
  }

  /** `handleLoadMore`: a fetch is issued only when idle and more content exists; it asks
      for page 2 of the preferred categories, whatever page the store is at. */
  function LoadMore(c: ContentState, prefs: Preferences): (r: Option<FetchRequest>)
    ensures r.Some? <==> !c.loading && c.hasMore
    ensures r.Some? ==> r.value.categories == prefs.categories && r.value.page == 2
  {
    if !c.loading && c.hasMore then Some(FetchRequest(prefs.categories, 2)) else None
  }

  /** What the page hands to the content grid. */
  datatype GridProps = GridProps(
    items: seq<ContentItem>,
    loading: bool,
    error: Option<string>,
    canLoadMore: bool,
    hasMore: bool,
    title: string,
    emptyMessage: string)

  /** The grid wiring: only the feed gets a load-more callback and the store's `hasMore`;
      the other sections get no callback and `hasMore` false. */
  function Grid(section: Section, c: ContentState): (g: GridProps)
    ensures g.items == CurrentItems(section, c)
    ensures g.loading == c.loading && g.error == c.error
    ensures section == Feed ==> g.canLoadMore && g.hasMore == c.hasMore
    ensures section != Feed ==> !g.canLoadMore && !g.hasMore
    ensures g.title == CurrentTitle(section, c.searchQuery) && g.emptyMessage == EmptyMessage(section, c.searchQuery)
  {
    GridProps(CurrentItems(section, c), c.loading, c.error, section == Feed,
              if section == Feed then c.hasMore else false,
              CurrentTitle(section, c.searchQuery), EmptyMessage(section, c.searchQuery))
  }

  /** The grid's scroll trigger in the feed always leads to a fetch: the trigger and the
      load-more guard test the same two flags. Outside the feed scrolling never fetches. */
  lemma ScrollTriggerIssuesFetch(section: Section, c: ContentState, prefs: Preferences, m: ScrollMetrics)
    ensures section != Feed ==> !HandleScroll(Some(m), Grid(section, c).loading, Grid(section, c).hasMore, None)
    ensures section == Feed && HandleScroll(Some(m), Grid(section, c).loading, Grid(section, c).hasMore, None) ==>
      LoadMore(c, prefs).Some?
  {
  }

  /** Once a fetch returns nothing, no further load-more is issued until another fetch
      succeeds with content. No successful `fetchContent` returns nothing, though: see
      `FetchedPageKeepsLoadMore`. */
  lemma NoLoadMoreAfterEmptyPage(c: ContentState, prefs: Preferences)
    ensures LoadMore(FetchFulfilled(c, []), prefs).None?
  {
  }

  /** Every successful batch holds at least the five social posts, so a fulfilled fetch
      always sets `hasMore` and load-more stays available: the feed never reaches its end. */
  lemma FetchedPageKeepsLoadMore(c: ContentState, prefs: Preferences, req: FetchRequest,
                                 gateway: string -> Result<seq<Article>>,
                                 movieSearch: Result<Option<seq<MovieHit>>>, now: string, time: string -> int)
    requires (forall i :: 0 <= i < |req.categories| ==> gateway(req.categories[i]).Success?) && movieSearch.Success?
    ensures var r := FetchContent(req, gateway, movieSearch, now, time);
            && r.Success? && |r.value| >= SocialPostsPerPage
            && FetchFulfilled(c, r.value).hasMore
            && LoadMore(FetchFulfilled(c, r.value), prefs).Some?
  {
    var r := FetchContent(req, gateway, movieSearch, now, time).value;
    var news := CollectNews(req.categories, req.page, gateway).value;
    var all := news + MovieItems(movieSearch.value, now) + SocialItems(req.page, now);
    assert |multiset(r)| == |multiset(all)|;
  }
}

=== FILE: infinite_scroll.dfy ===
/** The infinite-scroll trigger: when a scroll (or the initial check) asks for more content. */
module InfiniteScroll {
  import opened Wrappers

  /** The scroll position of the scrolled container, in whole pixels. */
  datatype ScrollMetrics = ScrollMetrics(scrollTop: int, scrollHeight: int, clientHeight: int)

  /** The distance from the bottom below which more content is requested, when the caller
      gives none. */
  const DefaultThreshold: int := 100

  function EffectiveThreshold(threshold: Option<int>): (t: int)
    ensures threshold.None? ==> t == DefaultThreshold
    ensures threshold.Some? ==> t == threshold.value
  {
    threshold.GetOr(DefaultThreshold)
  }

  /** How far the visible part of the container is from its bottom. */
  function Remaining(m: ScrollMetrics): int {
    m.scrollHeight - m.scrollTop - m.clientHeight
  }

  /** `handleScroll`: whether it calls `onLoadMore`. Nothing happens without an attached
      element, while loading, or once there is no more content. */
  function HandleScroll(target: Option<ScrollMetrics>, loading: bool, hasMore: bool, threshold: Option<int>): (fires: bool)
    ensures target.None? ==> !fires
    ensures loading || !hasMore ==> !fires
    ensures target.Some? && !loading && hasMore ==>
      (fires <==> target.value.scrollHeight - target.value.scrollTop - target.value.clientHeight < EffectiveThreshold(threshold))
  {
    if target.None? || loading || !hasMore then false
    else Remaining(target.value) < EffectiveThreshold(threshold)
  }

  /** Scrolling further down never withdraws a request: if the trigger fires at some
      position it fires at every position at least as close to the bottom. */
  lemma FiresCloserToBottom(m: ScrollMetrics, m': ScrollMetrics, loading: bool, hasMore: bool, threshold: Option<int>)
    requires HandleScroll(Some(m), loading, hasMore, threshold)
    requires Remaining(m') <= Remaining(m)
    ensures HandleScroll(Some(m'), loading, hasMore, threshold)
  {
  }
}

=== FILE: lists.dfy ===
/** Sequence operations the stores are built from: order-preserving filtering and the
    remove-then-insert move that `Array.prototype.splice` performs. */
module Lists {

  /** `a` can be obtained from `b` by deleting elements, keeping the order of the rest. */
  predicate IsSubsequence<T(==)>(a: seq<T>, b: seq<T>)
    decreases |b|
  {
    |a| == 0 || (|b| > 0 && ((a[0] == b[0] && IsSubsequence(a[1..], b[1..])) || IsSubsequence(a, b[1..])))
  }

  /** How many elements of `s` satisfy `p`. */
  function CountBy<T>(s: seq<T>, p: T -> bool): nat
  {
    if |s| == 0 then 0 else (if p(s[0]) then 1 else 0) + CountBy(s[1..], p)
  }

  /** `Array.prototype.filter`: the elements satisfying `p`, in their original order. */
  function FilterBy<T(==)>(s: seq<T>, p: T -> bool): (r: seq<T>)
    ensures IsSubsequence(r, s)
    ensures forall i :: 0 <= i < |r| ==> p(r[i])
    ensures forall i :: 0 <= i < |s| ==> (s[i] in r <==> p(s[i]))
    ensures |r| == CountBy(s, p)
  {
    if |s| == 0 then []
    else if p(s[0]) then [s[0]] + FilterBy(s[1..], p)
    else FilterBy(s[1..], p)
  }

  /** A subsequence made only of elements satisfying `p` has at most as many elements as
      `s` has such elements. */
  lemma {:induction false} SubsequenceCountBound<T>(a: seq<T>, s: seq<T>, p: T -> bool)
    requires IsSubsequence(a, s)
    requires forall i :: 0 <= i < |a| ==> p(a[i])
    ensures |a| <= CountBy(s, p)
    decreases |s|
  {
    if |a| > 0 {
      if a[0] == s[0] && IsSubsequence(a[1..], s[1..]) {
        SubsequenceCountBound(a[1..], s[1..], p);
      } else {
        SubsequenceCountBound(a, s[1..], p);
      }
    }
  }

  /** The filter is the ONLY subsequence of `s` that consists of elements satisfying `p`
      and has as many elements as `s` has such elements: it keeps exactly the matching
      positions. */
  lemma {:induction false} FilterByUnique<T>(s: seq<T>, p: T -> bool, a: seq<T>)
    requires IsSubsequence(a, s)
    requires forall i :: 0 <= i < |a| ==> p(a[i])
    requires |a| == CountBy(s, p)
    ensures a == FilterBy(s, p)
    decreases |s|
  {
    if |s| == 0 {
    } else if |a| == 0 {
      FilterByUnique(s[1..], p, a);
    } else if p(s[0]) {
      if a[0] == s[0] && IsSubsequence(a[1..], s[1..]) {
        FilterByUnique(s[1..], p, a[1..]);
        assert a == [a[0]] + a[1..];
      } else {
        SubsequenceCountBound(a, s[1..], p);
        assert false;
      }
    } else {
      assert a[0] != s[0];
      FilterByUnique(s[1..], p, a);
    }
  }

  /** Filtering distributes over concatenation: filtering an appended page extends the
      filtered list by the filtered page. */
  lemma {:induction false} FilterByConcat<T>(a: seq<T>, b: seq<T>, p: T -> bool)
    ensures FilterBy(a + b, p) == FilterBy(a, p) + FilterBy(b, p)
    decreases |a|
  {
    if |a| > 0 {
      assert (a + b)[1..] == a[1..] + b;
      FilterByConcat(a[1..], b, p);
    } else {
      assert a + b == b;
    }
  }

  lemma {:induction false} CountByConcat<T>(a: seq<T>, b: seq<T>, p: T -> bool)
    ensures CountBy(a + b, p) == CountBy(a, p) + CountBy(b, p)
    decreases |a|
  {
    if |a| > 0 {
      assert (a + b)[1..] == a[1..] + b;
      CountByConcat(a[1..], b, p);
    } else {
      assert a + b == b;
    }
  }

  /** No element satisfies `p` exactly when none is counted. */
  lemma {:induction false} CountByZero<T>(s: seq<T>, p: T -> bool)
    ensures CountBy(s, p) == 0 <==> forall i :: 0 <= i < |s| ==> !p(s[i])
    decreases |s|
  {
    if |s| > 0 {
      CountByZero(s[1..], p);
      assert forall i :: 1 <= i < |s| ==> s[i] == s[1..][i - 1];
    }
  }

  /** Filtering a sequence whose elements all pass leaves it unchanged. */
  lemma {:induction false} FilterByAll<T>(s: seq<T>, p: T -> bool)
    requires forall i :: 0 <= i < |s| ==> p(s[i])
    ensures FilterBy(s, p) == s
    decreases |s|
  {
    if |s| > 0 {
      FilterByAll(s[1..], p);
    }
  }

  /** Every element of a subsequence is an element of the sequence. */
  lemma {:induction false} SubsequenceMembers<T>(a: seq<T>, b: seq<T>)
    requires IsSubsequence(a, b)
    ensures forall i :: 0 <= i < |a| ==> a[i] in b
    decreases |b|
  {
    if |a| > 0 {
      if a[0] == b[0] && IsSubsequence(a[1..], b[1..]) {
        SubsequenceMembers(a[1..], b[1..]);
        assert forall i :: 1 <= i < |a| ==> a[i] == a[1..][i - 1];
      } else {
        SubsequenceMembers(a, b[1..]);
      }
    }
  }

  /** Replacing an element that fails `p` by another that fails it leaves the filter as is. */
  lemma {:induction false} FilterByUpdateFailing<T>(s: seq<T>, k: nat, y: T, p: T -> bool)
    requires k < |s|
    requires !p(s[k]) && !p(y)
    ensures FilterBy(s[k := y], p) == FilterBy(s, p)
    decreases k
  {
    var t := s[k := y];
    if k == 0 {
      assert t[1..] == s[1..];
    } else {
      assert t[1..] == s[1..][k - 1 := y];
      FilterByUpdateFailing(s[1..], k - 1, y, p);
    }
  }

  /** Replacing an element that passes `p` by another that passes it replaces it in the
      filter too, at the position given by the number of passing elements before it. */
  lemma {:induction false} FilterByUpdatePassing<T>(s: seq<T>, k: nat, y: T, p: T -> bool)
    requires k < |s|
    requires p(s[k]) && p(y)
    ensures CountBy(s[..k], p) < |FilterBy(s, p)|
    ensures FilterBy(s, p)[CountBy(s[..k], p)] == s[k]
    ensures FilterBy(s[k := y], p) == FilterBy(s, p)[CountBy(s[..k], p) := y]
    decreases k
  {
    var t := s[k := y];
    var rest := FilterBy(s[1..], p);
    if k == 0 {
      assert t[1..] == s[1..];
      assert s[..0] == [];
      assert FilterBy(t, p) == [y] + rest;
      assert FilterBy(s, p) == [s[0]] + rest;
    } else {
      assert t[1..] == s[1..][k - 1 := y];
      assert s[1..][k - 1] == s[k];
      FilterByUpdatePassing(s[1..], k - 1, y, p);
      CountByPrefixStep(s, k, p);
      var head := if p(s[0]) then [s[0]] else [];
      assert FilterBy(t, p) == head + FilterBy(t[1..], p);
      assert FilterBy(s, p) == head + rest;
      UpdateAfterPrefix(head, rest, CountBy(s[1..][..k - 1], p), y);
    }
  }

  /** The passing elements of a non-empty prefix: the head's share plus those of the tail's prefix. */
  lemma CountByPrefixStep<T>(s: seq<T>, k: nat, p: T -> bool)
    requires 0 < k <= |s|
    ensures CountBy(s[..k], p) == (if p(s[0]) then 1 else 0) + CountBy(s[1..][..k - 1], p)
  {
    assert s[..k][1..] == s[1..][..k - 1];
  }

  /** Updating past a prefix updates the part after it. */
  lemma UpdateAfterPrefix<T>(head: seq<T>, rest: seq<T>, j: nat, y: T)
    requires j < |rest|
    ensures (head + rest)[|head| + j := y] == head + rest[j := y]
  {
  }

  /** The sequences of `ss`, one after the other. */
  function Concat<T>(ss: seq<seq<T>>): seq<T>
  {
    if |ss| == 0 then [] else ss[0] + Concat(ss[1..])
  }

  /** Every element of every part is an element of the concatenation. */
  lemma {:induction false} ConcatContains<T>(ss: seq<seq<T>>, i: nat, j: nat)
    requires i < |ss| && j < |ss[i]|
    ensures ss[i][j] in Concat(ss)
    decreases i
  {
    if i == 0 {
      assert Concat(ss)[j] == ss[0][j];
    } else {
      ConcatContains(ss[1..], i - 1, j);
    }
  }

  /** Replaces the first occurrence of `x` by `y`. */
  function ReplaceFirst<T(==)>(s: seq<T>, x: T, y: T): (r: seq<T>)
    ensures |r| == |s|
    ensures x !in s ==> r == s
    ensures x in s ==> multiset(r) == multiset(s) - multiset{x} + multiset{y}
  {
    if |s| == 0 then []
    else if s[0] == x then
      assert s == [s[0]] + s[1..];
      [y] + s[1..]
    else
      assert s == [s[0]] + s[1..];
      [s[0]] + ReplaceFirst(s[1..], x, y)
  }

  /** Removes the element at index `i` (`splice(i, 1)` with `i` in range). */
  function RemoveAt<T>(s: seq<T>, i: nat): (r: seq<T>)
    requires i < |s|
    ensures |r| == |s| - 1
  {
    s[..i] + s[i + 1..]
  }

  /** Inserts `x` so that it lands at index `i` (`splice(i, 0, x)` with `i` in range). */
  function InsertAt<T>(s: seq<T>, i: nat, x: T): (r: seq<T>)
    requires i <= |s|
    ensures |r| == |s| + 1
  {
    s[..i] + [x] + s[i..]
  }

  /** The position `Array.prototype.splice` starts at for a requested `start` on an array of
      length `len`: negative values count from the end, and the result is clamped to
      `0..len`. */
  function SpliceIndex(start: int, len: nat): (r: nat)
    ensures r <= len
    ensures 0 <= start <= len ==> r == start
    ensures start > len ==> r == len
    ensures start < 0 ==> r == (if len + start < 0 then 0 else len + start)
  {
    if start < 0 then (if len + start < 0 then 0 else len + start)
    else if start > len then len
    else start
  }

  /** Taking the element at `i` out and putting it back between the two halves of the
      rest gives the sequence again. */
  lemma RemoveAtSplit<T>(s: seq<T>, i: nat)
    requires i < |s|
    ensures s == RemoveAt(s, i)[..i] + [s[i]] + RemoveAt(s, i)[i..]
    ensures multiset(s) == multiset(RemoveAt(s, i)) + multiset{s[i]}
  {
    var rest := RemoveAt(s, i);
    assert rest[..i] == s[..i];
    assert rest[i..] == s[i + 1..];
    assert s == s[..i] + [s[i]] + s[i + 1..];
  }

  /** Inserting `x` at `at` puts it there, and removing it from there undoes the insertion. */
  lemma InsertAtFacts<T>(rest: seq<T>, at: nat, x: T)
    requires at <= |rest|
    ensures InsertAt(rest, at, x)[at] == x
    ensures RemoveAt(InsertAt(rest, at, x), at) == rest
    ensures multiset(InsertAt(rest, at, x)) == multiset(rest) + multiset{x}
  {
    var r := InsertAt(rest, at, x);
    assert r[..at] == rest[..at];
    assert r[at + 1..] == rest[at..];
    assert rest == rest[..at] + rest[at..];
  }

  /** `const [x] = s.splice(from, 1); s.splice(to, 0, x)`: move one element. */
  function Move<T>(s: seq<T>, from: nat, to: int): (r: seq<T>)
    requires from < |s|
    ensures |r| == |s|
    ensures multiset(r) == multiset(s)
    ensures r[SpliceIndex(to, |s| - 1)] == s[from]
    ensures RemoveAt(r, SpliceIndex(to, |s| - 1)) == RemoveAt(s, from)
  {
    var rest := RemoveAt(s, from);
    var at := SpliceIndex(to, |rest|);
    RemoveAtSplit(s, from);
    InsertAtFacts(rest, at, s[from]);
    InsertAt(rest, at, s[from])
  }

  /** Dragging the first of four cards onto the third place: [A, B, C, D] becomes [B, C, A, D]. */
  lemma MoveExample()
    ensures Move(['A', 'B', 'C', 'D'], 0, 2) == ['B', 'C', 'A', 'D']
  {
  }

  /** Moving an element and moving it back restores the sequence. */
  lemma MoveBack<T>(s: seq<T>, from: nat, to: nat)
    requires from < |s| && to < |s|
    ensures Move(Move(s, from, to), to, from) == s
  {
    var twice := Move(Move(s, from, to), to, from);
    RemoveAtSplit(twice, from);
    RemoveAtSplit(s, from);
  }
}

=== FILE: pagination.dfy ===
/** Paging through the feed. The page's load-more always asks for page 2, and the fetch
    reducer decides between "replace" and "append" from the store's own cursor rather
    than from the page that was requested. This module exhibits both and gives the
    corrected pair, for which paging advances and a first-page fetch always replaces. */
module Pagination {
  import opened Wrappers
  import opened ContentModel
  import opened Search
  import opened ContentSlice
  import opened UserSlice
  import opened Aggregate
  import opened IndexView
  import opened InfiniteScroll

  // ---------------------------------------------------------------- as written

  /** After the first page and one load-more, the store is at page 3, yet the next
      load-more asks for page 2 again. */
  lemma LoadMoreRepeatsPageTwo(prefs: Preferences, first: seq<ContentItem>, second: seq<ContentItem>)
    requires |first| > 0 && |second| > 0
    ensures var afterFirst := FetchFulfilled(FetchPending(InitialState), first);
            var req1 := LoadMore(afterFirst, prefs);
            var afterSecond := FetchFulfilled(FetchPending(afterFirst), second);
            var req2 := LoadMore(afterSecond, prefs);
            && req1.Some? && req2.Some?
            && afterSecond.currentPage == 3
            && req1.value.page == 2 && req2.value.page == 2
  {
  }

  /** Appending the same non-empty page twice, which repeated page-2 requests do, puts
      every id of that page in the item list twice. */
  lemma AppendingSamePageTwiceRepeatsIds(s: ContentState, page: seq<ContentItem>)
    requires s.currentPage > 1
    requires |page| > 0
    ensures !UniqueIds(FetchFulfilled(FetchFulfilled(s, page), page).items)
  {
    var items := FetchFulfilled(FetchFulfilled(s, page), page).items;
    assert items == s.items + page + page;
    assert items[|s.items|].id == items[|s.items| + |page|].id;
  }

  /** A first-page request (as issued when the preferred categories change) answered while
      the store's cursor is past page 1 is appended to the old items instead of replacing
      them. */
  lemma FirstPageAppendedAfterPaging(s: ContentState, payload: seq<ContentItem>)
    requires s.currentPage != 1
    requires |s.items| > 0
    ensures FetchFulfilled(s, payload).items != payload
    ensures FetchFulfilled(s, payload).items == s.items + payload
  {
    assert |FetchFulfilled(s, payload).items| > |payload|;
  }

  // ---------------------------------------------------------------- corrected

  /** Load-more asking for the page the store's cursor names. */
  function LoadMoreNext(c: ContentState, prefs: Preferences): (r: Option<FetchRequest>)
    ensures r.Some? <==> !c.loading && c.hasMore
    ensures r.Some? ==> r.value.categories == prefs.categories && r.value.page == c.currentPage
  {
    if !c.loading && c.hasMore then Some(FetchRequest(prefs.categories, c.currentPage)) else None
  }

  /** The fetch reducer keyed on the request: a first page replaces the items, any other
      page is appended, and the cursor moves just past the page received. */
  function FetchFulfilledFor(s: ContentState, req: FetchRequest, payload: seq<ContentItem>): (r: ContentState)
    ensures !r.loading
    ensures req.page == 1 ==> r.items == payload
    ensures req.page != 1 ==> r.items == s.items + payload
    ensures ViewSynced(r)
    ensures r.hasMore <==> |payload| > 0
    ensures r.currentPage == req.page + 1
    ensures r == s.(loading := false, items := r.items, filteredItems := r.filteredItems,
                    hasMore := r.hasMore, currentPage := r.currentPage)
  {
    var items := if req.page == 1 then payload else s.items + payload;
    s.(loading := false, items := items, filteredItems := SearchView(items, s.searchQuery),
       hasMore := |payload| > 0, currentPage := req.page + 1)
  }

  /** Where the request matches the cursor, the corrected reducer agrees with the original
      on every page but a refetch of page 1 after paging. */
  lemma CorrectedAgreesWhenCursorMatches(s: ContentState, req: FetchRequest, payload: seq<ContentItem>)
    requires req.page == s.currentPage
    ensures FetchFulfilledFor(s, req, payload) == FetchFulfilled(s, payload)
  {
  }

  /** With the corrected pair, every successful load-more moves the next request one page on. */
  lemma LoadMoreNextAdvances(c: ContentState, prefs: Preferences, payload: seq<ContentItem>)
    requires LoadMoreNext(c, prefs).Some?
    requires |payload| > 0
    ensures var req := LoadMoreNext(c, prefs).value;
            var next := LoadMoreNext(FetchFulfilledFor(FetchPending(c), req, payload), prefs);
            next.Some? && next.value.page == req.page + 1
  {
  }

  /** With the corrected pair, a change of categories (a first-page request) always
      replaces the feed and restarts paging at page 2, whatever was loaded before. */
  lemma CategoryChangeRestartsPaging(c: ContentState, prefs: Preferences, payload: seq<ContentItem>)
    ensures var t := FetchFulfilledFor(FetchPending(c), InitialRequest(prefs), payload);
            t.items == payload && t.currentPage == 2
  {
  }

  /** With the corrected reducer a category change really does replace the items, and
      `favorites`, which no fetch touches, then names items the fresh (all non-favourite)
      list no longer flags. */
  lemma CategoryChangeLeavesFavoritesBehind(c: ContentState, prefs: Preferences, payload: seq<ContentItem>)
    requires |c.favorites| > 0
    requires forall i :: 0 <= i < |payload| ==> !payload[i].isFavorite
    ensures var t := FetchFulfilledFor(FetchPending(c), InitialRequest(prefs), payload);
            t.favorites == c.favorites && !FavoritesAgree(t)
  {
    var t := FetchFulfilledFor(FetchPending(c), InitialRequest(prefs), payload);
    assert c.favorites[0].id in Ids(t.favorites);
    assert FavoriteIds(t.items) == {};
  }

  /** In the feed, a scroll trigger followed by a successful corrected fetch appends the
      page named by the cursor and leaves the cursor one further. */
  lemma ScrollLoadsCursorPage(c: ContentState, prefs: Preferences, m: ScrollMetrics, payload: seq<ContentItem>)
    requires HandleScroll(Some(m), Grid(Feed, c).loading, Grid(Feed, c).hasMore, None)
    requires c.currentPage != 1
    ensures LoadMoreNext(c, prefs).Some?
    ensures var t := FetchFulfilledFor(FetchPending(c), LoadMoreNext(c, prefs).value, payload);
            t.items == c.items + payload && t.currentPage == c.currentPage + 1
  {
  }
}

=== FILE: reorder.dfy ===
/** Drag-and-drop reordering across the page's sections. Every grid hands its drag indices
    to the same `reorderContent`, which always works on the feed's list (the search results
    under a query, the items otherwise). A drag in the trending or favourites grid therefore
    moves a feed card, and a start index past the feed's list inserts `undefined` into it.
    This module exhibits both and gives the corrected reorder of the list the grid shows. */
module Reorder {
  import opened Wrappers
  import opened Lists
  import opened ContentModel
  import opened ContentSlice
  import opened IndexView

  // ---------------------------------------------------------------- as written

  /** Trending can arrive while the first feed page is still loading. The trending grid then
      shows three cards, and dragging the first onto the second inserts `undefined` at the
      head of the empty item list. */
  lemma DragInTrendingInsertsUndefined(t: seq<ContentItem>)
    requires |t| == 3
    ensures var s := Run(InitialState, [Pending, TrendingLoaded(t)]);
            && s.Some?
            && Grid(Trending, s.value).items == t && Grid(Trending, s.value).error.None?
            && ReorderContent(s.value, 0, 1) == UndefinedInserted(0)
            && Run(InitialState, [Pending, TrendingLoaded(t), Reorder(0, 1)]).None?
  {
    var s1 := Run(InitialState, [Pending]);
    assert [Pending, TrendingLoaded(t)][..1] == [Pending];
    assert [Pending, TrendingLoaded(t), Reorder(0, 1)][..2] == [Pending, TrendingLoaded(t)];
    assert s1 == Some(FetchPending(InitialState)) by {
      assert [Pending][..0] == [];
    }
  }

  /** A drag in the trending or favourites grid leaves the list that grid shows as it was
      and moves cards of the feed instead. */
  lemma DragOutsideFeedMovesFeed(section: Section, s: ContentState)
    requires section != Feed
    requires |s.searchQuery| == 0 && |s.items| >= 2 && s.items[0] != s.items[1]
    ensures var r := ReorderContent(s, 0, 1);
            && r.Reordered?
            && CurrentItems(section, r.state) == CurrentItems(section, s)
            && r.state.items[0] == s.items[1] && r.state.items[1] == s.items[0]
  {
  }

  // ---------------------------------------------------------------- corrected

  /** The state with the list that `section`'s grid shows replaced by `list`. */
  function WithDisplayed(section: Section, s: ContentState, list: seq<ContentItem>): (r: ContentState)
    ensures CurrentItems(section, r) == list
    ensures r.searchQuery == s.searchQuery
  {
    match section
    case Trending => s.(trending := list)
    case Favorites => s.(favorites := list)
    case Feed => if |s.searchQuery| > 0 then s.(filteredItems := list) else s.(items := list)
  }

  /** Move a card within the list the grid of `section` shows; a start index that names no
      card changes nothing. */
  function ReorderDisplayed(section: Section, s: ContentState, startIndex: nat, endIndex: int): (r: ContentState)
    ensures startIndex >= |CurrentItems(section, s)| ==> r == s
    ensures startIndex < |CurrentItems(section, s)| ==>
      CurrentItems(section, r) == Move(CurrentItems(section, s), startIndex, endIndex)
    ensures r == WithDisplayed(section, s, CurrentItems(section, r))
  {
    var shown := CurrentItems(section, s);
    if startIndex < |shown| then WithDisplayed(section, s, Move(shown, startIndex, endIndex))
    else
      assert WithDisplayed(section, s, shown) == s;
      s
  }

  /** In the feed the corrected reorder is the original one whenever the original does not
      insert `undefined`. */
  lemma ReorderDisplayedAgreesInFeed(s: ContentState, startIndex: nat, endIndex: int)
    requires startIndex < |CurrentItems(Feed, s)|
    ensures ReorderContent(s, startIndex, endIndex) == Reordered(ReorderDisplayed(Feed, s, startIndex, endIndex))
  {
  }

  /** The corrected reorder keeps the cards the grid shows and, for in-range indices, dragging
      a card back restores the whole state. */
  lemma ReorderDisplayedBack(section: Section, s: ContentState, startIndex: nat, endIndex: nat)
    requires startIndex < |CurrentItems(section, s)| && endIndex < |CurrentItems(section, s)|
    ensures multiset(CurrentItems(section, ReorderDisplayed(section, s, startIndex, endIndex)))
            == multiset(CurrentItems(section, s))
    ensures ReorderDisplayed(section, ReorderDisplayed(section, s, startIndex, endIndex), endIndex, startIndex) == s
  {
    var shown := CurrentItems(section, s);
    var once := ReorderDisplayed(section, s, startIndex, endIndex);
    MoveBack(shown, startIndex, endIndex);
    assert WithDisplayed(section, s, shown) == s;
    assert WithDisplayed(section, once, shown) == WithDisplayed(section, s, shown);
  }
}

=== FILE: search.dfy ===
/** The search rule of the content store: a case-insensitive substring match over an item's
    title, description and category. */
module Search {
  import opened Text
  import opened Lists
  import opened ContentModel

  /** The lower-cased query occurs in the lower-cased title, description or category.
      An empty query matches every item. */
  predicate Matches(item: ContentItem, query: string)
    ensures |query| == 0 ==> Matches(item, query)
  {
    var q := Lower(query);
    Contains(Lower(item.title), q) || Contains(Lower(item.description), q) || Contains(Lower(item.category), q)
  }

  function Matcher(query: string): ContentItem -> bool {
    (item: ContentItem) => Matches(item, query)
  }

  /** The items matching `query`, in their original order. */
  function Filter(items: seq<ContentItem>, query: string): (r: seq<ContentItem>)
    ensures IsSubsequence(r, items)
    ensures forall i :: 0 <= i < |r| ==> Matches(r[i], query)
    ensures forall i :: 0 <= i < |items| ==> (items[i] in r <==> Matches(items[i], query))
    ensures |r| == CountBy(items, Matcher(query))
  {
    FilterBy(items, Matcher(query))
  }

  /** What `filteredItems` holds for a given query: everything when the query is empty,
      the matching items otherwise. The shortcut for the empty query loses nothing: the
      result is always the filter. */
  function SearchView(items: seq<ContentItem>, query: string): (r: seq<ContentItem>)
    ensures r == Filter(items, query)
    ensures forall i :: 0 <= i < |items| ==> (items[i] in r <==> Matches(items[i], query))
  {
    if |query| == 0 then
      assert forall i :: 0 <= i < |items| ==> Matcher(query)(items[i]);
      FilterByAll(items, Matcher(query));
      items
    else Filter(items, query)
  }

  /** The match is a positional substring test on lower-cased text, and it ignores the
      case of the query. */
  lemma MatchesIffOccurs(item: ContentItem, query: string)
    ensures Matches(item, query) <==>
      (exists i :: OccursAt(Lower(item.title), Lower(query), i))
      || (exists i :: OccursAt(Lower(item.description), Lower(query), i))
      || (exists i :: OccursAt(Lower(item.category), Lower(query), i))
    ensures Matches(item, query) <==> Matches(item, Lower(query))
  {
    ContainsIffOccurs(Lower(item.title), Lower(query));
    ContainsIffOccurs(Lower(item.description), Lower(query));
    ContainsIffOccurs(Lower(item.category), Lower(query));
    LowerIdempotent(query);
  }

  /** The view of an appended list is the view of the old list followed by the view of
      the new page. */
  lemma SearchViewAppend(items: seq<ContentItem>, page: seq<ContentItem>, query: string)
    ensures SearchView(items + page, query) == SearchView(items, query) + SearchView(page, query)
  {
    if |query| > 0 {
      FilterByConcat(items, page, Matcher(query));
    }
  }

  /** Whether an item matches does not depend on its favourite flag. */
  lemma MatchesIgnoresFavorite(item: ContentItem, query: string, b: bool)
    ensures Matches(item.(isFavorite := b), query) == Matches(item, query)
  {
  }
}

=== FILE: text.dfy ===
/** String helpers: lower-casing, substring search and the decimal rendering of numbers. */
module Text {

  predicate IsUpper(c: char) {
    'A' <= c <= 'Z'
  }

  /** `toLowerCase` on one character, restricted to the ASCII letters. */
  function LowerChar(c: char): char {
    if IsUpper(c) then (c as int + 32) as char else c
  }

  /** `toLowerCase` on a string, character by character. */
  function Lower(s: string): (r: string)
    ensures |r| == |s|
    ensures forall i :: 0 <= i < |s| ==> r[i] == LowerChar(s[i])
  {
    seq(|s|, i requires 0 <= i < |s| => LowerChar(s[i]))
  }

  /** Lower-casing leaves no upper-case letter behind, so doing it twice changes nothing. */
  lemma LowerIdempotent(s: string)
    ensures forall i :: 0 <= i < |s| ==> !IsUpper(Lower(s)[i])
    ensures Lower(Lower(s)) == Lower(s)
  {
  }

  predicate StartsWith(s: string, t: string) {
    |t| <= |s| && s[..|t|] == t
  }

  /** `s.includes(t)`: some suffix of `s` starts with `t`. The empty string occurs in
      every string, and nothing longer than `s` occurs in it. */
  predicate Contains(s: string, t: string)
    ensures |t| == 0 ==> Contains(s, t)
    ensures Contains(s, t) ==> |t| <= |s|
    decreases |s|
  {
    StartsWith(s, t) || (|s| > 0 && Contains(s[1..], t))
  }

  /** `t` occurs in `s` at position `i`. */
  predicate OccursAt(s: string, t: string, i: int) {
    0 <= i && i + |t| <= |s| && s[i..i + |t|] == t
  }

  /** A slice of the tail is the slice of the whole one position further on. */
  lemma SliceOfTail(s: string, i: nat, n: nat)
    requires i + 1 + n <= |s|
    ensures s[1..][i..i + n] == s[i + 1..i + 1 + n]
  {
    var u, v := s[1..][i..i + n], s[i + 1..i + 1 + n];
    forall j | 0 <= j < n
      ensures u[j] == v[j]
    {
    }
  }

  /** The recursive search agrees with the positional definition of a substring. */
  lemma {:induction false} ContainsIffOccurs(s: string, t: string)
    ensures Contains(s, t) <==> exists i :: OccursAt(s, t, i)
    decreases |s|
  {
    if |s| > 0 {
      ContainsIffOccurs(s[1..], t);
    }
    if Contains(s, t) {
      if StartsWith(s, t) {
        assert OccursAt(s, t, 0);
      } else {
        var i :| OccursAt(s[1..], t, i);
        SliceOfTail(s, i, |t|);
        assert OccursAt(s, t, i + 1);
      }
    }
    forall i | OccursAt(s, t, i)
      ensures Contains(s, t)
    {
      if i == 0 {
        assert StartsWith(s, t);
      } else {
        SliceOfTail(s, i - 1, |t|);
        assert OccursAt(s[1..], t, i - 1);
      }
    }
  }

  function DigitChar(d: nat): (c: char)
    requires d < 10
    ensures '0' <= c <= '9'
  {
    ('0' as int + d) as char
  }

  /** Template-literal rendering `${n}` of a non-negative integer in base 10. */
  function NatToString(n: nat): (r: string)
    ensures 1 <= |r|
    ensures forall i :: 0 <= i < |r| ==> '0' <= r[i] <= '9'
    ensures n < 10 <==> |r| == 1
    ensures r[0] == '0' <==> n == 0
    decreases n
  {
    if n < 10 then [DigitChar(n)] else NatToString(n / 10) + [DigitChar(n % 10)]
  }

  /** Distinct numbers render as distinct strings. */
  lemma {:induction false} NatToStringInjective(m: nat, n: nat)
    requires NatToString(m) == NatToString(n)
    ensures m == n
    decreases m
  {
    var sm, sn := NatToString(m), NatToString(n);
    if m < 10 || n < 10 {
      assert m < 10 && n < 10;
      assert sm[0] == sn[0];
    } else {
      assert sm[|sm| - 1] == sn[|sn| - 1];
      assert m % 10 == n % 10;
      assert sm[..|sm| - 1] == NatToString(m / 10);
      assert sn[..|sn| - 1] == NatToString(n / 10);
      NatToStringInjective(m / 10, n / 10);
    }
  }
}

=== FILE: user_slice.dfy ===
/** The preference store: the user's categories and switches, the settings-panel flag, and
    the one storage slot the preferences are saved to and restored from. */
module UserSlice {
  import opened Wrappers

  datatype Preferences = Preferences(
    categories: seq<string>,
    darkMode: bool,
    autoRefresh: bool,
    notificationsEnabled: bool)

  datatype UserState = UserState(preferences: Preferences, isSettingsOpen: bool)

  /** A `Partial<UserPreferences>`: each field is either given or absent. */
  datatype PartialPreferences = PartialPreferences(
    categories: Option<seq<string>>,
    darkMode: Option<bool>,
    autoRefresh: Option<bool>,
    notificationsEnabled: Option<bool>)

  /** What the storage slot yields when read: nothing (or an empty string), text that does
      not parse, or a parsed object contributing the preference fields it has. */
  datatype Stored = Missing | Unparsable | Parsed(fields: PartialPreferences)

  const DefaultPreferences: Preferences :=
    Preferences(["technology", "business", "entertainment"], false, true, true)

  const NoChanges: PartialPreferences := PartialPreferences(None, None, None, None)

  /** `{ ...p, ...patch }`: the fields given in `patch` override those of `p`. */
  function Merge(p: Preferences, patch: PartialPreferences): (r: Preferences)
    ensures r.categories == patch.categories.GetOr(p.categories)
    ensures r.darkMode == patch.darkMode.GetOr(p.darkMode)
    ensures r.autoRefresh == patch.autoRefresh.GetOr(p.autoRefresh)
    ensures r.notificationsEnabled == patch.notificationsEnabled.GetOr(p.notificationsEnabled)
  {
    Preferences(
      patch.categories.GetOr(p.categories),
      patch.darkMode.GetOr(p.darkMode),
      patch.autoRefresh.GetOr(p.autoRefresh),
      patch.notificationsEnabled.GetOr(p.notificationsEnabled))
  }

  /** Every field of `p`, as the object `JSON.stringify` writes and `JSON.parse` reads back. */
  function AllFields(p: Preferences): PartialPreferences {
    PartialPreferences(Some(p.categories), Some(p.darkMode), Some(p.autoRefresh), Some(p.notificationsEnabled))
  }

  /** What saving `p` leaves in the storage slot. */
  function Persist(p: Preferences): Stored {
    Parsed(AllFields(p))
  }

  /** `loadPreferences`: the defaults, overridden field by field by what was stored. */
  function LoadPreferences(stored: Stored): (r: Preferences)
    ensures !stored.Parsed? ==> r == DefaultPreferences
    ensures stored.Parsed? ==>
      && r.categories == stored.fields.categories.GetOr(DefaultPreferences.categories)
      && r.darkMode == stored.fields.darkMode.GetOr(DefaultPreferences.darkMode)
      && r.autoRefresh == stored.fields.autoRefresh.GetOr(DefaultPreferences.autoRefresh)
      && r.notificationsEnabled == stored.fields.notificationsEnabled.GetOr(DefaultPreferences.notificationsEnabled)
  {
    match stored
    case Parsed(fields) => Merge(DefaultPreferences, fields)
    case _ => DefaultPreferences
  }

  function InitialUserState(stored: Stored): (r: UserState)
    ensures !r.isSettingsOpen
    ensures r.preferences == LoadPreferences(stored)
  {
    UserState(LoadPreferences(stored), false)
  }

  /** Restoring what was saved gives back the saved preferences. */
  lemma LoadAfterPersist(p: Preferences)
    ensures LoadPreferences(Persist(p)) == p
  {
  }

  /** A patch with no fields changes nothing, and two patches in a row act like one in
      which the later fields win. */
  lemma MergeLaws(p: Preferences, a: PartialPreferences, b: PartialPreferences)
    ensures Merge(p, NoChanges) == p
    ensures Merge(Merge(p, a), b) == Merge(p, PartialPreferences(
      if b.categories.Some? then b.categories else a.categories,
      if b.darkMode.Some? then b.darkMode else a.darkMode,
      if b.autoRefresh.Some? then b.autoRefresh else a.autoRefresh,
      if b.notificationsEnabled.Some? then b.notificationsEnabled else a.notificationsEnabled))
  {
  }

  // ---------------------------------------------------------------- reducers

  /** `updatePreferences(partial)`: overwrite exactly the given fields. */
  function UpdatePreferences(s: UserState, patch: PartialPreferences): (r: UserState)
    ensures patch.categories.Some? ==> r.preferences.categories == patch.categories.value
    ensures patch.categories.None? ==> r.preferences.categories == s.preferences.categories
    ensures patch.darkMode.Some? ==> r.preferences.darkMode == patch.darkMode.value
    ensures patch.darkMode.None? ==> r.preferences.darkMode == s.preferences.darkMode
    ensures patch.autoRefresh.Some? ==> r.preferences.autoRefresh == patch.autoRefresh.value
    ensures patch.autoRefresh.None? ==> r.preferences.autoRefresh == s.preferences.autoRefresh
    ensures patch.notificationsEnabled.Some? ==> r.preferences.notificationsEnabled == patch.notificationsEnabled.value
    ensures patch.notificationsEnabled.None? ==> r.preferences.notificationsEnabled == s.preferences.notificationsEnabled
    ensures r.isSettingsOpen == s.isSettingsOpen
  {
    s.(preferences := Merge(s.preferences, patch))
  }

  /** `categories.indexOf(c)`: the first position holding `c`. */
  function IndexOf(cats: seq<string>, c: string): (r: Option<nat>)
    ensures r.Some? ==> r.value < |cats| && cats[r.value] == c
    ensures r.Some? ==> forall j :: 0 <= j < r.value ==> cats[j] != c
    ensures r.None? <==> c !in cats
  {
    if |cats| == 0 then None
    else if cats[0] == c then Some(0)
    else match IndexOf(cats[1..], c)
      case None => None
      case Some(k) => Some(k + 1)
  }

  /** The category list after `toggleCategory(c)`. */
  function ToggledCategories(cats: seq<string>, c: string): (r: seq<string>)
    ensures c in cats ==> |r| == |cats| - 1 && multiset(r) == multiset(cats) - multiset{c}
    ensures c in cats ==> var k := IndexOf(cats, c).value;
      r[..k] == cats[..k] && r[k..] == cats[k + 1..]
    ensures c !in cats ==> r == cats + [c]
  {
    match IndexOf(cats, c)
    case Some(k) =>
      assert cats == cats[..k] + [c] + cats[k + 1..];
      cats[..k] + cats[k + 1..]
    case None => cats + [c]
  }

  /** `toggleCategory(c)`: remove the first occurrence of `c`, or append it when absent. */
  function ToggleCategory(s: UserState, c: string): (r: UserState)
    ensures c in s.preferences.categories ==>
      |r.preferences.categories| == |s.preferences.categories| - 1
      && multiset(r.preferences.categories) == multiset(s.preferences.categories) - multiset{c}
    ensures c !in s.preferences.categories ==> r.preferences.categories == s.preferences.categories + [c]
    ensures r.preferences.categories == ToggledCategories(s.preferences.categories, c)
    ensures r == s.(preferences := s.preferences.(categories := r.preferences.categories))
  {
    s.(preferences := s.preferences.(categories := ToggledCategories(s.preferences.categories, c)))
  }

  /** `toggleDarkMode`: flip the switch. Applying the theme to the page is not modelled. */
  function ToggleDarkMode(s: UserState): (r: UserState)
    ensures r.preferences.darkMode != s.preferences.darkMode
    ensures r == s.(preferences := s.preferences.(darkMode := r.preferences.darkMode))
  {
    s.(preferences := s.preferences.(darkMode := !s.preferences.darkMode))
  }

  /** `setSettingsOpen(open)`. */
  function SetSettingsOpen(s: UserState, open: bool): (r: UserState)
    ensures r.isSettingsOpen == open
    ensures r.preferences == s.preferences
  {
    s.(isSettingsOpen := open)
  }

  predicate NoDuplicates(cats: seq<string>) {
    forall i, j :: 0 <= i < j < |cats| ==> cats[i] != cats[j]
  }

  // ---------------------------------------------------------------- properties

  /** Toggling an absent category twice gives back the original list. */
  lemma ToggleAbsentTwice(s: UserState, c: string)
    requires c !in s.preferences.categories
    ensures ToggleCategory(ToggleCategory(s, c), c) == s
  {
    var cats := s.preferences.categories;
    var once := cats + [c];
    assert IndexOf(once, c) == Some(|cats|);
    assert once[..|cats|] == cats;
  }

  /** On a duplicate-free list the toggle keeps it duplicate-free, changes its length by
      exactly one, and flips whether `c` is present. */
  lemma ToggleKeepsNoDuplicates(cats: seq<string>, c: string)
    requires NoDuplicates(cats)
    ensures NoDuplicates(ToggledCategories(cats, c))
    ensures |ToggledCategories(cats, c)| == |cats| + (if c in cats then -1 else 1)
    ensures c in ToggledCategories(cats, c) <==> c !in cats
  {
    if c in cats {
      RemovalKeepsNoDuplicates(cats, IndexOf(cats, c).value);
    } else {
      AppendKeepsNoDuplicates(cats, c);
    }
  }

  /** Removing position `k` of a duplicate-free list leaves a duplicate-free list without
      the removed value. */
  lemma RemovalKeepsNoDuplicates(cats: seq<string>, k: nat)
    requires NoDuplicates(cats)
    requires k < |cats|
    ensures NoDuplicates(cats[..k] + cats[k + 1..])
    ensures cats[k] !in cats[..k] + cats[k + 1..]
  {
    var r := cats[..k] + cats[k + 1..];
    forall i, j | 0 <= i < j < |r|
      ensures r[i] != r[j]
    {
      var i' := if i < k then i else i + 1;
      var j' := if j < k then j else j + 1;
      assert r[i] == cats[i'] && r[j] == cats[j'];
    }
    forall i | 0 <= i < |r|
      ensures r[i] != cats[k]
    {
      var i' := if i < k then i else i + 1;
      assert r[i] == cats[i'];
    }
  }

  /** Appending an absent value to a duplicate-free list keeps it duplicate-free. */
  lemma AppendKeepsNoDuplicates(cats: seq<string>, c: string)
    requires NoDuplicates(cats)
    requires c !in cats
    ensures NoDuplicates(cats + [c])
  {
    var r := cats + [c];
    forall i, j | 0 <= i < j < |r|
      ensures r[i] != r[j]
    {
      if j == |cats| {
        assert r[i] == cats[i];
      }
    }
  }

  /** The default categories with "business" toggled off are technology and entertainment. */
  lemma ToggleBusinessFromDefaults()
    ensures ToggleCategory(UserState(DefaultPreferences, false), "business").preferences.categories
      == ["technology", "entertainment"]
  {
    assert IndexOf(DefaultPreferences.categories, "business") == Some(1);
  }

  /** Toggling dark mode twice is the identity. */
  lemma ToggleDarkModeTwice(s: UserState)
    ensures ToggleDarkMode(ToggleDarkMode(s)) == s
  {
  }

  // ---------------------------------------------------------------- storage

  /** The actions of the preference store. */
  datatype UserAction =
    | Update(patch: PartialPreferences)
    | ToggleCat(category: string)
    | ToggleDark
    | SetSettings(open: bool)

  /** One action of the preference store: the panel action leaves the preferences alone,
      and every other action leaves the panel alone. */
  function Reduce(s: UserState, a: UserAction): (r: UserState)
    ensures a.SetSettings? ==> r.preferences == s.preferences && r.isSettingsOpen == a.open
    ensures !a.SetSettings? ==> r.isSettingsOpen == s.isSettingsOpen
  {
    match a
    case Update(p) => UpdatePreferences(s, p)
    case ToggleCat(c) => ToggleCategory(s, c)
    case ToggleDark => ToggleDarkMode(s)
    case SetSettings(b) => SetSettingsOpen(s, b)
  }

  /** The store together with the storage slot it saves into. */
  datatype Session = Session(user: UserState, storage: Stored)

  function StartSession(stored: Stored): Session {
    Session(InitialUserState(stored), stored)
  }

  /** Dispatch one action: every preference mutation saves the whole preference object;
      opening or closing the settings panel saves nothing. */
  function Dispatch(sess: Session, a: UserAction): (r: Session)
    ensures a.SetSettings? ==> r.storage == sess.storage
    ensures !a.SetSettings? ==> r.storage == Persist(r.user.preferences)
  {
    var user := Reduce(sess.user, a);
    Session(user, if a.SetSettings? then sess.storage else Persist(user.preferences))
  }

  /** Reloading the page at any point restores the preferences in effect. */
  ghost predicate StorageReflects(sess: Session) {
    LoadPreferences(sess.storage) == sess.user.preferences
  }

  lemma {:induction false} SessionStorageReflects(stored: Stored, actions: seq<UserAction>)
    ensures StorageReflects(Run(StartSession(stored), actions))
    decreases |actions|
  {
    if |actions| > 0 {
      var before := Run(StartSession(stored), actions[..|actions| - 1]);
      SessionStorageReflects(stored, actions[..|actions| - 1]);
      var a := actions[|actions| - 1];
      if !a.SetSettings? {
        LoadAfterPersist(Reduce(before.user, a).preferences);
      }
    }
  }

  function Run(sess: Session, actions: seq<UserAction>): Session
    decreases |actions|
  {
    if |actions| == 0 then sess
    else Dispatch(Run(sess, actions[..|actions| - 1]), actions[|actions| - 1])
  }
}

=== FILE: view_sync.dfy ===
/** Keeping the search results in step with the items. `setSearchQuery` and a fulfilled
    fetch recompute them; a reorder under a query permutes them on purpose; a favourite
    toggle changes the item in `items` only, so the search results keep showing the old
    flag. This module states the invariant the view keeps, exhibits the toggle that breaks
    it, and gives the corrected toggle that keeps it. */
module ViewSync {
  import opened Lists
  import opened ContentModel
  import opened Search
  import opened ContentSlice

  /** `filteredItems` holds exactly the search view of `items`, possibly reordered. */
  ghost predicate ViewPermutes(s: ContentState) {
    multiset(s.filteredItems) == multiset(SearchView(s.items, s.searchQuery))
  }

  /** The actions that leave the view consistent, whatever the state. */
  lemma ReduceKeepsViewPermutes(s: ContentState, a: ContentAction)
    requires ViewPermutes(s)
    requires !a.Toggle?
    ensures Reduce(s, a).Some? ==> ViewPermutes(Reduce(s, a).value)
  {
    if a.Reorder? && |s.searchQuery| == 0 && Reduce(s, a).Some? {
      var r := Reduce(s, a).value;
      assert SearchView(r.items, r.searchQuery) == r.items;
    }
  }

  // ---------------------------------------------------------------- as written

  /** In search mode, toggling a matching item leaves its old version in the search results
      and its new version out of them, although the new version matches the query. */
  lemma ToggleLeavesSearchResultsStale(s: ContentState, id: string)
    requires UniqueIds(s.items)
    requires ViewSynced(s)
    requires |s.searchQuery| > 0
    requires IndexOfId(s.items, id).Some?
    requires Matches(s.items[IndexOfId(s.items, id).value], s.searchQuery)
    ensures var k := IndexOfId(s.items, id).value;
            var r := ToggleFavorite(s, id);
            && r.items[k] !in r.filteredItems
            && r.items[k] in SearchView(r.items, r.searchQuery)
            && !ViewPermutes(r)
  {
    var k := IndexOfId(s.items, id).value;
    var r := ToggleFavorite(s, id);
    var flipped := r.items[k];
    MatchesIgnoresFavorite(s.items[k], s.searchQuery, flipped.isFavorite);
    assert flipped !in s.items by {
      forall j | 0 <= j < |s.items|
        ensures s.items[j] != flipped
      {
        if j != k {
          assert s.items[j].id != s.items[k].id;
        }
      }
    }
    SubsequenceMembers(s.filteredItems, s.items);
    assert flipped !in r.filteredItems;
    assert flipped in SearchView(r.items, r.searchQuery);
    assert multiset(SearchView(r.items, r.searchQuery))[flipped] > 0;
    assert multiset(r.filteredItems)[flipped] == 0;
  }

  // ---------------------------------------------------------------- corrected

  /** The favourite toggle that also updates the toggled item where the search results
      show it. */
  function ToggleFavoriteInView(s: ContentState, id: string): (r: ContentState)
    ensures r.items == ToggleFavorite(s, id).items && r.favorites == ToggleFavorite(s, id).favorites
    ensures IndexOfId(s.items, id).None? ==> r == s
    ensures IndexOfId(s.items, id).Some? ==>
      var before := s.items[IndexOfId(s.items, id).value];
      && |r.filteredItems| == |s.filteredItems|
      && (before in s.filteredItems ==>
            multiset(r.filteredItems)
              == multiset(s.filteredItems) - multiset{before} + multiset{before.(isFavorite := !before.isFavorite)})
      && (before !in s.filteredItems ==> r.filteredItems == s.filteredItems)
    ensures r == ToggleFavorite(s, id).(filteredItems := r.filteredItems)
  {
    var t := ToggleFavorite(s, id);
    match IndexOfId(s.items, id)
    case None => t
    case Some(k) => t.(filteredItems := ReplaceFirst(s.filteredItems, s.items[k], t.items[k]))
  }

  /** The corrected toggle keeps the search results consistent with the items. */
  lemma ToggleInViewKeepsViewPermutes(s: ContentState, id: string)
    requires ViewPermutes(s)
    ensures ViewPermutes(ToggleFavoriteInView(s, id))
  {
    if IndexOfId(s.items, id).Some? {
      var k := IndexOfId(s.items, id).value;
      var r := ToggleFavoriteInView(s, id);
      var before, flipped := s.items[k], r.items[k];
      assert r.items == s.items[k := flipped];
      if |s.searchQuery| == 0 {
        assert before in multiset(s.items);
        assert before in s.filteredItems;
      } else {
        ViewAfterFlip(s.items, k, flipped, s.searchQuery);
        if Matches(before, s.searchQuery) {
          assert before in multiset(s.filteredItems);
        }
      }
    }
  }

  /** How the search view changes when one item's favourite flag changes. */
  lemma ViewAfterFlip(items: seq<ContentItem>, k: nat, flipped: ContentItem, query: string)
    requires k < |items|
    requires flipped == items[k].(isFavorite := flipped.isFavorite)
    requires |query| > 0
    ensures Matches(items[k], query) ==> items[k] in multiset(Filter(items, query))
    ensures Matches(items[k], query) ==>
      multiset(Filter(items[k := flipped], query)) == multiset(Filter(items, query)) - multiset{items[k]} + multiset{flipped}
    ensures !Matches(items[k], query) ==> Filter(items[k := flipped], query) == Filter(items, query)
  {
    MatchesIgnoresFavorite(items[k], query, flipped.isFavorite);
    if Matches(items[k], query) {
      FilterByUpdatePassing(items, k, flipped, Matcher(query));
    } else {
      FilterByUpdateFailing(items, k, flipped, Matcher(query));
    }
  }
}

=== FILE: wrappers.dfy ===
/** Optional values and success/failure results shared by every module. */
module Wrappers {

  /** A value that may be absent: `undefined`/`null` in the dashboard's data. */
  datatype Option<+T> = None | Some(value: T) {
    function GetOr(default: T): T {
      match this
      case Some(v) => v
      case None => default
    }
  }

  /** The outcome of an asynchronous call: a value, or the message it was rejected with. */
  datatype Result<+R> = Success(value: R) | Failure(error: string)
}
